=== FILE: README.md ===
# custom-elements: clone-content, input-value and abort epochs in Dafny

This project models three pieces of sequential logic from the `kizu/custom-elements` web components.

- **`<clone-content>`** (`src/clone-content.js`). The element manages the nodes its query selects. Each node is an original or a clone carrying a `data-clone` tag. The element also holds `stashed`, the originals it has detached, and `originalRoot`, the container it records when the first original leaves. A change of `count` runs one reconciliation pass. The pass does four things, in order:
  - it restores stashed originals from the front of the stash;
  - it creates deep copies of the last item, each tagged with its 1-based position;
  - it pops surplus clones off the tail;
  - it moves trailing originals to the front of the stash.

  New nodes are batched into one fragment. The fragment goes after the last pre-existing item, or at the start of `originalRoot`.
- **The input bus and `<input-value>`** (`src/custom-inputs.js`). The bus has four parts:
  - an insertion-ordered `inputMap`, written by `updateInputSource` with its `max` clamp;
  - the `matchesScope` rule;
  - subscriptions registered by `getInputValue`, each with one initial delivery and then every broadcast, filtered by `!==` against the last delivered value;
  - the `<input-value>` element, which re-renders on a `to`/`as` change, resubscribes on a `from` change, and dispatches each write on its `as` mode.
- **`AbortableMixin`** (`src/base-mixins.js`). This is the controller that a subscription's lifetime hangs on.
  - `disconnectedCallback` aborts the current controller.
  - `cleanup` aborts it and installs a fresh one.

Modules:
- `Wrappers`: `Option` and `Result`.
- `Abortable`: the controller history of one element, oldest first. The last entry is `this.controller`.
- `CloneContent`: the pass.
  - `PlanPass` is its closed form.
  - `Reconcile` runs the four loops as written and is proved equal to `PlanPass`.
  - `Pass` adds partitioning and placement.
- `CloneContentProofs`: the invariant `Settled` of states reached by `count` changes, the four shapes a pass takes from such a state, and the main theorem `PassKeepsSettled`.
- `InputBus`: JavaScript values, with NaN and `===`, the map, the scope rule, listeners and broadcast.
- `InputValue`: the element's callbacks, page updates, and runs of events. A run takes the connection behaviour as a parameter: `AsWritten` (the `connectedCallback` of the code) or `Resubscribing` (the corrected one).
- `InputValueProofs`: the well-formedness invariant (at most one live subscription per element), delivery facts, and the reconnect finding.

## Model

| member | source | states |
|---|---|---|
| CloneContent.ScopedRoot | src/clone-content.js:24-27 | The root part of the query is always anchored at `:root` or `:scope`. It is `:scope` when there is no `root` attribute. An already anchored root is kept verbatim. Any other root gets the prefix `:scope `. |
| CloneContent.QuerySelector | src/clone-content.js:23-32 | The selector is the scoped root followed by the target, which defaults to ` > *`. The selector is always anchored. With neither attribute it is `:scope > *`. |
| CloneContent.ScopedRootIdempotent | src/clone-content.js:24-27 | Feeding a scoped root back in as the `root` attribute does not prefix it again. |
| CloneContent.CountOf | src/clone-content.js:40 | `Math.max(0, Number(count))`. A NaN count stays NaN. Otherwise the result is at least the input, and it is either the input or 0. |
| CloneContent.RestoreCount | src/clone-content.js:54-65 | The restore takes at most the whole stash. It takes something exactly when the stash is non-empty and `count` exceeds the attached originals. The originals then number `min(count, originals + stash)`. |
| CloneContent.FreshClones | src/clone-content.js:69-76 | Every new clone copies the markup of the same source and is tagged with its 1-based position in the whole list. The new clones have pairwise distinct identities, all at or above the next unused one. |
| CloneContent.PlanPass | src/clone-content.js:54-100 | The pass fails exactly when there are no items, no stash and `count` > 0. Otherwise: <br>- restored nodes are a prefix of the stash; <br>- clones are made only after the whole stash has come back and only when `count` exceeds originals + stash + clones; <br>- growing removes nothing; restoring evicts nothing; <br>- evicted originals go to the front of the stash in document order; <br>- `originalRoot` is recorded exactly when original 0 leaves. |
| CloneContent.RestoreLoop | src/clone-content.js:55-65 | The loop restores exactly `RestoreCount` originals from the front of the stash. Its `if (!el) continue` guard never fires. |
| CloneContent.GrowLoop | src/clone-content.js:67-78 | The loop fails exactly when there is neither a clone nor an original to copy. Otherwise it yields `count - total` fresh clones of the last clone, or of the last original when there is no clone, tagged `total+1 .. count`. |
| CloneContent.TrimLoop | src/clone-content.js:83-89 | Popping `target` clones leaves the first `len - target` clones, or none. A pop on an empty list does nothing. |
| CloneContent.StashLoop | src/clone-content.js:91-100 | Originals `count..` are unshifted onto the stash in document order. The root is recorded exactly when `count` is 0. |
| CloneContent.Reconcile | src/clone-content.js:42-100 | The pass, loop by loop, equals the closed form `PlanPass`. The trim pops from the clones found at the start, which agrees with the code because a pass that grows never trims. |
| CloneContent.Pass | src/clone-content.js:38-108 | A NaN count leaves the element untouched. The pass fails (`cloneNode` of `undefined`) exactly when items and stash are empty and `count` > 0. The next unused identity never decreases. |
| CloneContent.Place | src/clone-content.js:102-107 | The new items are the old items that stay attached, in document order, followed by the restored and then the created nodes. This holds when the fragment has an anchor: the last old item is still attached, or, with no old items, `originalRoot` is recorded. Without an anchor, `after` on a detached node and `?.prepend` on `null` drop the fragment, and only the kept items remain. |
| CloneContentProofs.PartitionIsPermutation | src/clone-content.js:44-50 | Splitting the selected items into originals and clones by `data-clone` loses no item and invents none. As multisets, originals plus clones are the selected items. |
| CloneContent.AttributeChanged | src/clone-content.js:18-38 | An unchanged value, any `root` change, and `count` set to `""` do nothing. Any other change of `count` or `target` runs a pass. |
| CloneContentProofs.Initial | src/clone-content.js:11-12 | An element with only originals attached, an empty stash and no `originalRoot` is in the settled state. When the originals have distinct identities below the next unused one, its identities are in order too. |
| CloneContentProofs.PassEvicts | src/clone-content.js:83-100 | From a settled state with `count` below the attached originals, every clone is removed. The tail originals go to the front of the stash in order, and the root is recorded when `count` is 0. |
| CloneContentProofs.PassTrims | src/clone-content.js:83-89 | From a settled state, a `count` between the originals and all items pops clones off the tail and changes nothing else. |
| CloneContentProofs.PassRestores | src/clone-content.js:55-65 | From a settled state, a `count` within the pool re-attaches the first stashed originals after the attached ones. |
| CloneContentProofs.PassGrows | src/clone-content.js:67-78 | From a settled state with a copy source, a `count` beyond the pool and clones restores the whole stash, then appends copies of the last node tagged with their positions. |
| CloneContentProofs.PlaceGrown | src/clone-content.js:102-107 | The batched fragment lands after the last old item, or at the start of `originalRoot` when there were none. The result is originals, restored, old clones, new clones. |
| CloneContentProofs.PassKeepsSettled | src/clone-content.js:38-108 | From any settled state, one `count` change fails exactly when there is nothing to copy. Otherwise: <br>- the state settles again with `max(0, count)` items over the same originals in the same order; <br>- the first `count` of the pool are attached and the rest are stashed, whenever the pool suffices; <br>- clones only grow or shrink at the tail. |
| CloneContentProofs.PassKeepsIdentities | src/clone-content.js:67-100 | From a settled state whose nodes have distinct identities, one `count` change keeps them distinct. Every node the element owns afterwards is either one it owned before or a new clone, whose identity was never handed out before. No identity is reused. |
| CloneContentProofs.CountClamped | src/clone-content.js:40 | A negative `count` behaves exactly like 0. |
| CloneContentProofs.CountPathIndependent | src/clone-content.js:55-65 | Within the pool, the attached items and the stash depend only on the last `count`. Lowering and then raising `count` brings back the very same nodes in the same order. |
| CloneContentProofs.GrowScenario | src/clone-content.js:67-78 | Three originals and `count` 5 give two copies of the third, tagged 4 and 5. |
| CloneContentProofs.ShrinkScenario | src/clone-content.js:91-100 | Three originals and `count` 1 stash the last two, in order. |
| CloneContentProofs.EmptyAndRefillScenario | src/clone-content.js:95-107 | `count` 0 stashes everything and records the container. `count` 2 then prepends the first two originals into it. |
| Abortable.Fresh | src/base-mixins.js:8 | A new instance has exactly one controller, and it is not aborted. |
| Abortable.AbortCurrent | src/base-mixins.js:10 | `abort()` marks the current controller aborted and leaves every earlier one as it was. |
| Abortable.Disconnect | src/base-mixins.js:9-11 | `disconnectedCallback` aborts the current controller without replacing it. |
| Abortable.Cleanup | src/base-mixins.js:14-17 | `cleanup` aborts the current controller and installs a new, unaborted one. Earlier controllers are untouched. |
| Abortable.CleanupLeavesOnlyCurrentLive | src/base-mixins.js:14-17 | If every earlier controller was aborted, then after `cleanup` every controller except the new current one is aborted. |
| Abortable.DisconnectLeavesNothingLive | src/base-mixins.js:9-11 | After `disconnectedCallback` no controller of the element is live. |
| Abortable.AbortIsPermanent | src/base-mixins.js:9-17 | Neither operation revives an aborted controller. |
| Abortable.DisconnectIdempotent | src/base-mixins.js:9-11 | Disconnecting twice is the same as disconnecting once. |
| InputBus.StrictEqualsIsEqualityButNaN | src/custom-inputs.js:32 | `===` is structural equality, except that NaN equals nothing. |
| InputBus.MathMin | src/custom-inputs.js:12 | `Math.min` is NaN when either side is NaN. Otherwise it is the smaller of the two. |
| InputBus.SourceValue | src/custom-inputs.js:11-13 | With an empty `max` the raw string is stored. Otherwise the stored number is NaN iff either number is NaN, and it is otherwise the smaller of `max` and `value`. |
| InputBus.MatchesScopeRule | src/custom-inputs.js:23-26 | An input is visible iff it matches the selector and either the output has no enclosing `input-scope` or both share the same nearest one. |
| InputBus.Lookup | src/custom-inputs.js:63 | `inputMap.get` gives `undefined` for an input never stored. Otherwise it gives that input's value. |
| InputBus.Store | src/custom-inputs.js:14 | `inputMap.set` keeps an existing key in place and appends a new one. Keys stay distinct. |
| InputBus.StoreThenLookup | src/custom-inputs.js:14 | After a store, looking up the stored input gives the stored value. Every other input keeps its value. |
| InputBus.StoreIdempotent | src/custom-inputs.js:14 | Storing the same value twice equals storing it once. |
| InputBus.Deliver | src/custom-inputs.js:31-36 | The handler runs iff the new value is not `===` to the last delivered one. A delivered value becomes the last one. |
| InputBus.FirstMatch | src/custom-inputs.js:39-46 | The initial source is the first map entry, in insertion order, that the output can see. No earlier entry is visible. None means no entry is visible. |
| InputBus.SubscribeDeliversFirstMatch | src/custom-inputs.js:39-49 | At most one initial delivery happens. It carries the first visible entry's value, unless that value is `undefined`. |
| InputBus.Notify | src/custom-inputs.js:52-65 | A listener fires only while registered and only for an input it can see. It then receives the map's current value through `!==` dedup. Otherwise it is unchanged. |
| InputBus.Broadcast | src/custom-inputs.js:15 | One dispatch notifies every listener, each independently, in registration order. |
| InputBus.RepeatedBroadcastIsQuiet | src/custom-inputs.js:31-36 | Dispatching the same update twice makes a listener fire the second time iff the value is NaN and the listener is live and sees the input. |
| InputBus.AbortedListenerIsDeaf | src/custom-inputs.js:66-70 | A listener whose signal is aborted neither fires nor changes. |
| InputValue.WriteFor | src/custom-inputs.js:115-123 | A write targets the given output. No write is made iff the mode is neither `textContent` nor starts with `@` or `--`. |
| InputValue.WriteModes | src/custom-inputs.js:115-123 | The mode table: <br>- `textContent` writes `value` or null when falsy; <br>- `@value` sets the property when the output has one, and otherwise the `value` attribute; <br>- `@name` sets the attribute to `value` or `""`; <br>- `--x` sets the style property to `value` or `""`. |
| InputValue.AttrOr | src/custom-inputs.js:110-111 | `getAttribute(x)` with a default: an absent or empty attribute takes the default. |
| InputValue.WritesInto | src/custom-inputs.js:113-124 | A mode that writes nothing writes to no output. Any other mode writes to every output exactly once, in document order, each write being the dispatch of `WriteFor` for that output. |
| InputValue.ApplyValue | src/custom-inputs.js:109-126 | The outputs are the element itself for `to="self"`, otherwise what `querySelectorAll(to)` returns, with `to` defaulting to `output`. Each output in order receives the write for the `as` mode, which defaults to `textContent`; a mode that writes nothing makes no write. With `to="self"` and the default mode this is exactly one text write of `value`, or null when it is falsy. |
| InputValue.Callback | src/custom-inputs.js:104-147 | An unchanged value does nothing. A `to`/`as` change only re-renders. A `from` change: <br>- runs `cleanup`; <br>- appends exactly one listener, registered with the new controller and the new selector (`"null"` for a removed attribute), which is the first visible entry's subscription; <br>- sets `value` to the initial delivery when there is one, and otherwise keeps it; <br>- renders with the new `value` exactly when there was an initial delivery, and otherwise writes nothing; <br>- leaves the map and the other elements alone; <br>- in every case, keeps the element's `from`, `to` and `as` attributes. |
| InputValue.SetAttr | src/custom-inputs.js:104-107 | The attribute takes the new value. Setting it to its current value changes nothing and writes nothing. |
| InputValue.Connected | src/custom-inputs.js:96-102 | As written: with a `from` attribute, connecting does nothing. Without one, it acts as a `from` change from null to `*`. |
| InputValue.Disconnected | src/base-mixins.js:9-11 | Disconnecting aborts the element's current controller and changes nothing else. |
| InputValue.Created | src/custom-inputs.js:94 | A new element has no attributes, an undefined `value` and one live controller. |
| InputValue.InputUpdate | src/custom-inputs.js:9-16 | An input event: <br>- stores the clamped value; <br>- leaves every controller alone; <br>- notifies every listener with its liveness; <br>- leaves elements without a live listener untouched. <br>`QuietUpdate`, `SuppressedLeavesElement` and `UpdateRendersSoleListener` state what a suppressed or an accepted delivery does to elements and writes. |
| InputValueProofs.HandlerWritesSole | src/custom-inputs.js:136-139 | When exactly one listener of a dispatch accepted the value, the handlers together write what one `applyValue` writes for that listener's element holding the accepted value, and nothing more. |
| InputValueProofs.UpdateRendersSoleListener | src/custom-inputs.js:52-65 | What an input event writes. Suppose live listener `i` sees the input, the clamped value is not `===` to its last value, and no other live listener the value reaches would accept it. Then the event's writes are exactly those of `applyValue` on `i`'s element holding the new value (src/custom-inputs.js:136-139). |
| InputValueProofs.EmptyPage | src/custom-inputs.js:5 | The page with an empty map, no listeners and no elements is well formed. |
| InputValueProofs.AtMostOneLive | src/custom-inputs.js:133 | On a well-formed page two live listeners of the same element are the same listener. |
| InputValueProofs.CallbackKeepsWellFormed | src/custom-inputs.js:133-146 | Every attribute callback keeps the page well formed: the new listener holds a controller newer than all earlier ones of its element. |
| InputValueProofs.InputUpdateKeepsWellFormed | src/custom-inputs.js:9-16 | An input event keeps the page well formed. |
| InputValueProofs.RunKeepsWellFormed | src/custom-inputs.js:96-147 | Any sequence of creations, attribute changes, connections, disconnections and input events keeps a well-formed page well formed. This holds for connections as written (`connectedCallback`) and for connections that always resubscribe. |
| InputValueProofs.RunHasAtMostOneLive | src/custom-inputs.js:133-146 | From the empty page, whatever happens, no element ever holds two live subscriptions. This holds with connections as written and with connections that always resubscribe. |
| InputValueProofs.FromChangeSubscribesOnce | src/custom-inputs.js:133-146 | After a `from` change the element's only live subscription is the new one, with the new selector. |
| InputValueProofs.RenderChangeKeepsSubscription | src/custom-inputs.js:128-131 | A `to`/`as` change keeps listeners, controllers and `value`. It writes what the new attributes ask for. |
| InputValueProofs.UpdateReachesLiveListener | src/custom-inputs.js:52-65 | For a live listener that sees the input: <br>- when the stored value is not `===` the last delivered one, both the listener and its element take the new value; <br>- otherwise neither the listener nor its element changes. |
| InputValueProofs.SuppressedLeavesElement | src/custom-inputs.js:52-65 | A suppressed delivery runs no handler. The input may be outside the listener's scope (src/custom-inputs.js:56-62), or the value may be `===` to the last one delivered (src/custom-inputs.js:31-36). Either way, a live listener and its element are unchanged after the event. |
| InputValueProofs.QuietUpdate | src/custom-inputs.js:9-16 | Suppose every live listener that sees the input already holds a `===` value. Then the event writes nothing and changes no listener and no element; only the map records the value. |
| InputValueProofs.ReconnectIsDeaf | src/custom-inputs.js:96-102 | As written: an element with `from` that is disconnected and reconnected has no live subscription. |
| InputValueProofs.ReconnectedElementMissesUpdates | src/custom-inputs.js:96-102 | As written: after such a reconnection no input event changes the element. |
| InputValueProofs.ReconnectFixedListens | src/custom-inputs.js:96-102 | With a connection that always subscribes, a reconnected element has exactly one live subscription, to its own `from` selector (or `*`). |

## Left out

- DOM queries: `querySelectorAll`, `closest('input-scope')`, `matches` and `'value' in output` are uninterpreted (`InputBus.Dom`). For `<clone-content>`, the pass receives the selected items directly.
- `Number()` parsing and floating point: counts and values are integers or NaN. The numbers `Number()` gives are parameters. Fractional counts and values are not modelled.
- `cloneNode`, `DocumentFragment`, `after`, `prepend` and `remove` are sequence operations. A clone is a fresh identity plus the identity of the original whose markup it copies; attribute contents and `id`s of clones are not modelled.
- `CloneContent.Pass`: `after` on a detached last item is modelled as losing the fragment. From settled states this never happens (`PassKeepsSettled`).
- `CloneContent.AttributeChanged`: `count` is given already parsed. The `root` attribute is only read through `QuerySelector`, and the item list a changed query selects is an input.
- `CustomEvent`, `document.addEventListener` and `AbortSignal` internals: a broadcast is a synchronous loop over every listener ever registered, with a liveness flag taken from the owner's controller.
- `InputBus.Broadcast`: liveness is taken once, before the loop, and the writes handlers make are returned rather than applied. This is an assumption of the model. In a page, a handler's write can abort another listener in the middle of a dispatch, and the browser then skips that listener. Two ways this happens: a `textContent` write that removes a nested `<input-value>`, whose `disconnectedCallback` aborts its controller; and an `as="@from"` write to another `<input-value>`, whose callback runs `cleanup`. Such cascades are not modelled.
- `InputValue.InputUpdate`: in the model, the handlers run in registration order after the whole broadcast. In the code, each handler runs during the dispatch, right after its own listener accepts the value (src/custom-inputs.js:15, :64). A listener's decision depends only on its liveness, its scope and its own last value. Under the assumption stated for `InputBus.Broadcast`, no handler changes those, so both orders give the same writes in the same order. At most one listener per element is live (`AtMostOneLive`), so the writes of one element never interleave.
- `InputValue.Callback`: in the model, DOM queries and writes never throw. In the code, each of these can throw:
  - `querySelectorAll(to)` with an invalid `to` selector (src/custom-inputs.js:112);
  - `matches(selector)` with an invalid `from` selector (src/custom-inputs.js:25-26);
  - `setAttribute` with an invalid name, as for `as="@"` or `as="@1x"` (src/custom-inputs.js:120).
  A throw at the initial delivery (src/custom-inputs.js:47-48) comes after `this.value` is set, so the code keeps the value but never registers the listener (src/custom-inputs.js:66-70); the model always appends the listener. A throw in a handler during a broadcast skips `value = newValue` (src/custom-inputs.js:33-34), so the code's listener keeps its old `last`; the model updates it. The same holds for `InputValue.InputUpdate` and `InputValue.WriteFor`.
- `CloneContent.CountOf`: a `count` of `"Infinity"` or `"1e999"` gives `Number(...) = Infinity`. The grow loop of the code then never ends (src/clone-content.js:40, :69). In the model, counts are integers or NaN, so this hang is not modelled.
- Actual `textContent`, attribute and style writes are returned as `Write` values.
- `InputSource` (src/custom-inputs.js:73-86): it finds its `<input>` and calls `updateInputSource` on connection and on every `input` event. The model exposes `updateInputSource` as the `SourceInput` event.
- `RegisterableMixin` (src/base-mixins.js:28-38): it only calls `customElements.define`.
- src/index.js is not part of this model. It only re-exports.
- `console.log` (src/clone-content.js:39) and the empty `connectedCallback` of `<clone-content>`.
- The order in which the browser calls `attributeChangedCallback` and `connectedCallback` at upgrade time is not modelled. Events are applied in the order given.
- The model follows the code in these behaviours:
  - A NaN `count` leaves everything as it is, because every comparison with NaN is false.
  - A clone's tag is its position in the whole list. The copies made after three originals are tagged 4, 5, ….
  - New nodes are inserted as one batch.
  - Setting `count` to `""` is ignored.
  - The scope is the nearest `input-scope`.
  - There is no `.class` write mode: such an `as` writes nothing.
  - Growing with nothing attached and nothing stashed is an error outcome.

## Findings

| source | as written | input that shows it | evidently intended | confidence | as-written member | corrected member |
|---|---|---|---|---|---|---|
| src/custom-inputs.js:96-102 | `connectedCallback` subscribes only when there is no `from` attribute. `disconnectedCallback` (src/base-mixins.js:9-11) aborts the subscription. | An `<input-value from="x">` is removed and re-inserted, for example when a `<clone-content>` stashes and later restores the original containing it. It no longer receives any input update. | Reconnecting resubscribes with the current `from` selector, so the element listens again. | medium, not executed | InputValueProofs.ReconnectIsDeaf | InputValueProofs.ReconnectFixedListens |

=== FILE: abortable.dfy ===
/**
  The cancellation state of `AbortableMixin` (src/base-mixins.js).

  Every `AbortController` an element has ever held is kept, oldest first,
  as its `aborted` flag; the last one is `this.controller`. A listener that
  was registered with the signal of controller `k` stays registered exactly
  while flag `k` is false.
 */
module Abortable {

  /** The controllers of one element; never empty, the last is the current one. */
  type Controllers = c: seq<bool> | |c| > 0 witness [false]

  /** Index of `this.controller`. */
  function Current(c: Controllers): nat {
    |c| - 1
  }

  predicate IsAborted(c: Controllers, k: nat) {
    k < |c| && c[k]
  }

  /** Every controller except possibly the current one has been aborted. */
  predicate Superseded(c: Controllers) {
    forall k :: 0 <= k < Current(c) ==> c[k]
  }

  /** The field initialiser `controller = new AbortController()`. */
  function Fresh(): (c: Controllers)
    ensures Current(c) == 0 && !IsAborted(c, Current(c))
    ensures Superseded(c)
  {
    [false]
  }

  /** `controller.abort()`: idempotent, touches no other controller. */
  function AbortCurrent(c: Controllers): (c': Controllers)
    ensures |c'| == |c| && IsAborted(c', Current(c'))
    ensures forall k :: 0 <= k < Current(c) ==> c'[k] == c[k]
  {
    c[Current(c) := true]
  }

  /** `disconnectedCallback`: aborts the current controller and keeps it. */
  function Disconnect(c: Controllers): (c': Controllers)
    ensures Current(c') == Current(c)
    ensures IsAborted(c', Current(c'))
    ensures forall k :: 0 <= k < Current(c) ==> c'[k] == c[k]
  {
    AbortCurrent(c)
  }

  /** `cleanup`: aborts the current controller, then installs a fresh one. */
  function Cleanup(c: Controllers): (c': Controllers)
    ensures Current(c') == Current(c) + 1
    ensures !IsAborted(c', Current(c'))
    ensures IsAborted(c', Current(c))
    ensures forall k :: 0 <= k < Current(c) ==> c'[k] == c[k]
  {
    AbortCurrent(c) + [false]
  }

  /** After `cleanup` only the fresh controller is live, whatever came before. */
  lemma CleanupLeavesOnlyCurrentLive(c: Controllers)
    requires Superseded(c)
    ensures Superseded(Cleanup(c))
    ensures forall k :: 0 <= k < |Cleanup(c)| ==> (IsAborted(Cleanup(c), k) <==> k != Current(Cleanup(c)))
  {
    var c' := Cleanup(c);
    forall k | 0 <= k < |c'|
      ensures IsAborted(c', k) <==> k != Current(c')
    {
      if k < Current(c) {
        assert c'[k] == c[k];
      }
    }
  }

  /** After `disconnectedCallback` no controller of the element is live. */
  lemma DisconnectLeavesNothingLive(c: Controllers)
    requires Superseded(c)
    ensures Superseded(Disconnect(c))
    ensures forall k :: 0 <= k < |Disconnect(c)| ==> IsAborted(Disconnect(c), k)
  {
    var c' := Disconnect(c);
    forall k | 0 <= k < |c'|
      ensures IsAborted(c', k)
    {
      if k < Current(c) {
        assert c'[k] == c[k];
      }
    }
  }

  /** An aborted controller is never revived, by either operation. */
  lemma AbortIsPermanent(c: Controllers, k: nat)
    requires IsAborted(c, k)
    ensures IsAborted(Disconnect(c), k)
    ensures IsAborted(Cleanup(c), k)
  {
  }

  /** Aborting twice is the same as aborting once. */
  lemma DisconnectIdempotent(c: Controllers)
    ensures Disconnect(Disconnect(c)) == Disconnect(c)
  {
  }
}

=== FILE: clone_content.dfy ===
/**
  The reconciliation pass of `CloneContent` (src/clone-content.js).

  The element manages the nodes its query selects ("items", in document
  order). Each is an original or a clone carrying a `data-clone` tag; the
  element also keeps `stashed`, the originals it has detached, and
  `originalRoot`, the container recorded when the first original left.
  Node identities are natural numbers; `cloneNode` hands out fresh ones.
 */
module CloneContent {
  import opened Wrappers

  /** A managed node. A clone's `data-clone` attribute holds the decimal
      string of `tag`; `origin` is the original whose markup it copies. */
  datatype Item = Orig(id: nat) | Clone(id: nat, tag: nat, origin: nat)

  datatype Attr = Count | Root | Target

  /** The per-instance state the pass reads and writes. `items` is what
      `getContent()` returns; `nextId` is the next identity `cloneNode` gives. */
  datatype Host = Host(items: seq<Item>, stash: seq<Item>, originalRoot: Option<nat>, nextId: nat)

  /** `el.cloneNode` on `undefined`: growing with nothing to copy throws. */
  datatype Error = NoCloneSource

  // ---------------------------------------------------------------------
  // Query selector (`getContent`)
  // ---------------------------------------------------------------------

  /** `s.includes(t)`. */
  predicate Contains(s: string, t: string)
    decreases |s|
  {
    |t| <= |s| && (s[..|t|] == t || Contains(s[1..], t))
  }

  lemma {:induction false} ContainsPrefix(t: string, rest: string)
    ensures Contains(t + rest, t)
  {
    assert (t + rest)[..|t|] == t;
  }

  lemma {:induction false} ContainsExtend(s: string, t: string, rest: string)
    requires Contains(s, t)
    ensures Contains(s + rest, t)
    decreases |s|
  {
    if (s + rest)[..|t|] != t {
      assert s[..|t|] != t by {
        assert (s + rest)[..|t|] == s[..|t|];
      }
      ContainsExtend(s[1..], t, rest);
      assert (s + rest)[1..] == s[1..] + rest;
    }
  }

  /** The query is anchored at the element: it mentions `:scope` or `:root`. */
  predicate Anchored(s: string) {
    Contains(s, ":root") || Contains(s, ":scope")
  }

  lemma AnchoredExtend(s: string, rest: string)
    requires Anchored(s)
    ensures Anchored(s + rest)
  {
    if Contains(s, ":root") {
      ContainsExtend(s, ":root", rest);
    } else {
      ContainsExtend(s, ":scope", rest);
    }
  }

  /** The `root` part: `:scope` by default, and prefixed with `:scope `
      unless it already mentions `:root` or `:scope`. */
  function ScopedRoot(root: Option<string>): (r: string)
    ensures Anchored(r)
    ensures root.None? ==> r == ":scope"
    ensures root.Some? && Anchored(root.value) ==> r == root.value
    ensures root.Some? && !Anchored(root.value) ==> r == ":scope " + root.value
  {
    match root
    case None =>
      ContainsPrefix(":scope", "");
      assert ":scope" + "" == ":scope";
      ":scope"
    case Some(s) =>
      if Anchored(s) then s
      else
        ContainsPrefix(":scope", " " + s);
        assert ":scope" + (" " + s) == ":scope " + s;
        ":scope " + s
  }

  /** The full selector handed to `querySelectorAll`: root, then target
      (default ` > *`, the direct children). */
  function QuerySelector(root: Option<string>, target: Option<string>): (q: string)
    ensures Anchored(q)
    ensures q == ScopedRoot(root) + target.GetOr(" > *")
    ensures root.None? && target.None? ==> q == ":scope > *"
  {
    var r := ScopedRoot(root);
    var t := target.GetOr(" > *");
    AnchoredExtend(r, t);
    r + t
  }

  /** Scoping an already scoped root changes nothing. */
  lemma ScopedRootIdempotent(root: Option<string>)
    ensures ScopedRoot(Some(ScopedRoot(root))) == ScopedRoot(root)
  {
  }

  // ---------------------------------------------------------------------
  // Partition of the items
  // ---------------------------------------------------------------------

  /** The items without a `data-clone` tag, in document order. */
  function Originals(items: seq<Item>): (r: seq<Item>)
    ensures |r| <= |items|
    ensures forall i :: 0 <= i < |r| ==> r[i].Orig?
  {
    if items == [] then []
    else (if items[0].Orig? then [items[0]] else []) + Originals(items[1..])
  }

  /** The items with a `data-clone` tag, in document order. */
  function Clones(items: seq<Item>): (r: seq<Item>)
    ensures |r| + |Originals(items)| == |items|
    ensures forall i :: 0 <= i < |r| ==> r[i].Clone?
  {
    if items == [] then []
    else (if items[0].Clone? then [items[0]] else []) + Clones(items[1..])
  }

  /** The markup a deep copy of `x` carries. */
  function OriginOf(x: Item): nat {
    match x
    case Orig(id) => id
    case Clone(_, _, origin) => origin
  }

  function Min(a: int, b: int): int {
    if a <= b then a else b
  }

  /** `Math.max(0, Number(count))` with `None` standing for NaN. */
  function CountOf(n: Option<int>): (c: Option<nat>)
    ensures c.Some? <==> n.Some?
    ensures c.Some? ==> c.value >= n.value && (c.value == n.value || c.value == 0)
  {
    match n
    case None => None
    case Some(k) => if k < 0 then Some(0) else Some(k)
  }

  // ---------------------------------------------------------------------
  // One pass, in closed form
  // ---------------------------------------------------------------------

  /** What one pass decides. `restored` and `created` go into the fragment in
      that order; the first `keepOrigs` originals and first `keepClones`
      clones of the old items stay attached; `stash` is the new stash. */
  datatype Plan = Plan(restored: seq<Item>, created: seq<Item>, keepOrigs: nat, keepClones: nat,
                       stash: seq<Item>, recordRoot: bool)

  /** How many originals the restore loop takes off the front of the stash. */
  function RestoreCount(originals: nat, stash: seq<Item>, count: nat): (n: nat)
    ensures n <= |stash|
    ensures n > 0 <==> |stash| > 0 && count > originals
    ensures n > 0 ==> originals + n == Min(count, originals + |stash|)
  {
    if |stash| > 0 && count > originals then Min(count, originals + |stash|) - originals else 0
  }

  /** No two nodes of `s` share an identity. */
  predicate DistinctIds(s: seq<Item>) {
    forall i, j :: 0 <= i < j < |s| ==> s[i].id != s[j].id
  }

  /** Every node of `s` has an identity below `bound`. */
  predicate IdsBelow(s: seq<Item>, bound: nat) {
    forall i :: 0 <= i < |s| ==> s[i].id < bound
  }

  /** `n` deep copies of `source` for positions `start`, `start+1`, ...:
      each copies the markup of `source`, is tagged with its 1-based
      position, and has an identity of its own from `nextId` on. */
  function FreshClones(source: Item, start: nat, n: nat, nextId: nat): (r: seq<Item>)
    ensures |r| == n && DistinctIds(r)
    ensures forall k :: 0 <= k < n ==> nextId <= r[k].id < nextId + n
    ensures forall k :: 0 <= k < n ==> r[k].Clone? && r[k].tag == start + k + 1 && r[k].origin == OriginOf(source)
  {
    seq(n, k requires 0 <= k < n => Clone(nextId + k, start + k + 1, OriginOf(source)))
  }

  /** Lines 54-100 on the partitioned items. */
  function PlanPass(originals: seq<Item>, clones: seq<Item>, stash: seq<Item>, count: nat, nextId: nat): (r: Result<Plan, Error>)
    ensures r.Failure? <==> originals == [] && clones == [] && stash == [] && count > 0
    ensures r.Success? ==> var p := r.value;
      && |p.restored| <= |stash| && p.restored == stash[..|p.restored|]
      && p.keepOrigs <= |originals| && p.keepClones <= |clones|
      // stashed originals come back before any clone is made
      && (|p.created| > 0 ==> count > |originals| + |stash| + |clones| && p.restored == stash)
      // growing never removes
      && (|p.created| > 0 ==> p.keepOrigs == |originals| && p.keepClones == |clones|)
      // restoring never evicts
      && (|p.restored| > 0 ==> p.keepOrigs == |originals| && p.stash == stash[|p.restored|..])
      // the originals are only rearranged
      && (p.keepOrigs < |originals| ==> p.restored == [] && p.stash == originals[p.keepOrigs..] + stash)
      && (p.recordRoot <==> p.keepOrigs < |originals| && p.keepOrigs == 0)
  {
    var tol := Min(count, |originals| + |stash|);
    var n := RestoreCount(|originals|, stash, count);
    var origs := originals + stash[..n];
    var total := tol + |clones|;
    if count > total && clones == [] && origs == [] then Failure(NoCloneSource)
    else
      var created :=
        if count > total then
          FreshClones(if clones != [] then clones[|clones| - 1] else origs[|origs| - 1], total, count - total, nextId)
        else [];
      var trim := if count >= tol && count < |originals| + |clones| then |originals| + |clones| - count else 0;
      var evict := count < |origs|;
      Success(Plan(
        stash[..n],
        created,
        if evict then count else |originals|,
        if trim >= |clones| then 0 else |clones| - trim,
        if evict then origs[count..] + stash[n..] else stash[n..],
        evict && count == 0))
  }

  /** The restore loop (lines 55-65): shift stashed originals onto the
      fragment until there are `Min(count, originals + stash)` of them.
      `skipped` counts how often its `if (!el) continue` guard fires. */
  method RestoreLoop(originals: seq<Item>, stash: seq<Item>, count: nat)
    returns (restored: seq<Item>, stashed: seq<Item>, skipped: int)
    ensures skipped == 0
    ensures |restored| == RestoreCount(|originals|, stash, count)
    ensures restored + stashed == stash
  {
    var tol := Min(count, |originals| + |stash|);
    restored, stashed, skipped := [], stash, 0;
    if |stashed| > 0 && count > |originals| {
      var i := |originals|;
      while i < tol
        invariant |originals| <= i <= tol
        invariant |restored| == i - |originals|
        invariant restored + stashed == stash
        invariant skipped == 0
      {
        if |stashed| == 0 {
          skipped := skipped + 1;
        } else {
          var el := stashed[0];
          restored := restored + [el];
          stashed := stashed[1..];
        }
        i := i + 1;
      }
    }
  }

  /** The grow loop (lines 68-78): each new clone copies the last clone so
      far, or the last original when there is none, and is tagged with its
      1-based position `i + 1`. */
  method GrowLoop(origs: seq<Item>, clones: seq<Item>, total: nat, count: nat, nextId: nat)
    returns (r: Result<seq<Item>, Error>)
    requires count > total
    ensures r.Failure? <==> clones == [] && origs == []
    ensures r.Success? ==>
      r.value == FreshClones(if clones != [] then clones[|clones| - 1] else origs[|origs| - 1], total, count - total, nextId)
  {
    if clones == [] && origs == [] {
      return Failure(NoCloneSource);
    }
    ghost var first := if clones != [] then clones[|clones| - 1] else origs[|origs| - 1];
    var cls := clones;
    var created: seq<Item> := [];
    var i := total;
    while i < count
      invariant total <= i <= count
      invariant |created| == i - total
      invariant forall k :: 0 <= k < |created| ==> created[k] == Clone(nextId + k, total + k + 1, OriginOf(first))
      invariant cls == clones + created
      invariant cls != [] || origs != []
      invariant cls != [] ==> OriginOf(cls[|cls| - 1]) == OriginOf(first)
      invariant cls == [] ==> first == origs[|origs| - 1]
    {
      var source := if cls != [] then cls[|cls| - 1] else origs[|origs| - 1];
      var c := Clone(nextId + (i - total), i + 1, OriginOf(source));
      cls := cls + [c];
      created := created + [c];
      i := i + 1;
    }
    return Success(created);
  }

  /** The trim loop (lines 84-88): pop `target` clones off the tail; a pop
      on an empty array yields `undefined`, whose `?.remove()` does nothing. */
  method TrimLoop(clones: seq<Item>, target: nat) returns (cls: seq<Item>)
    ensures cls == clones[..if target <= |clones| then |clones| - target else 0]
  {
    cls := clones;
    var i := 0;
    while i < target
      invariant 0 <= i <= target
      invariant cls == clones[..if i <= |clones| then |clones| - i else 0]
    {
      if cls != [] {
        cls := cls[..|cls| - 1];
      }
      i := i + 1;
    }
  }

  /** The stash loop (lines 91-100): walk the originals from the tail down
      to index `count`, `unshift`ing each onto the stash, and note whether
      index 0 was reached (that is when `originalRoot` is recorded). */
  method StashLoop(origs: seq<Item>, stash: seq<Item>, count: nat) returns (stashed: seq<Item>, recordRoot: bool)
    requires count < |origs|
    ensures stashed == origs[count..] + stash
    ensures recordRoot <==> count == 0
  {
    stashed, recordRoot := stash, false;
    var i: int := |origs| - 1;
    while i >= count
      invariant count - 1 <= i < |origs|
      invariant stashed == origs[i + 1..] + stash
      invariant recordRoot <==> i < 0
    {
      stashed := [origs[i]] + stashed;
      if i == 0 {
        recordRoot := true;
      }
      i := i - 1;
    }
  }

  /** Lines 42-100, loop by loop, agree with the closed form. The trim
      pops from `clones` as the pass found it, where the code pops from the
      array the grow loop has just extended; the two agree because a pass
      that grows never trims (the grow and trim conditions exclude each
      other, as `PlanPass` states). */
  method Reconcile(originals: seq<Item>, clones: seq<Item>, stash: seq<Item>, count: nat, nextId: nat)
    returns (r: Result<Plan, Error>)
    ensures r == PlanPass(originals, clones, stash, count, nextId)
  {
    var restored, stashed, _ := RestoreLoop(originals, stash, count);
    assert stashed == stash[|restored|..] && restored == stash[..|restored|];
    var origs := originals + restored;
    var tol := Min(count, |originals| + |stash|);
    var total := tol + |clones|;
    var created: seq<Item> := [];
    if count > total {
      var grown := GrowLoop(origs, clones, total, count, nextId);
      if grown.Failure? {
        return Failure(NoCloneSource);
      }
      created := grown.value;
    }
    var cls := clones;
    if count >= tol && count < |originals| + |clones| {
      cls := TrimLoop(clones, |originals| + |clones| - count);
    }
    var keepOrigs := |originals|;
    var recordRoot := false;
    if count < |origs| {
      stashed, recordRoot := StashLoop(origs, stashed, count);
      keepOrigs := count;
    }
    r := Success(Plan(restored, created, keepOrigs, |cls|, stashed, recordRoot));
  }

  /** The first `ko` originals and first `kc` clones of `items`, in order:
      what is left after the tail clones are popped and the tail originals
      removed. */
  function Keep(items: seq<Item>, ko: nat, kc: nat): (r: seq<Item>)
    ensures |r| <= |items|
  {
    if items == [] then []
    else if items[0].Orig? then
      (if ko > 0 then [items[0]] + Keep(items[1..], ko - 1, kc) else Keep(items[1..], 0, kc))
    else
      (if kc > 0 then [items[0]] + Keep(items[1..], ko, kc - 1) else Keep(items[1..], ko, 0))
  }

  /** Whether the last of the old items is still attached, so that
      `after` on it places the fragment in the document. */
  predicate LastKept(items: seq<Item>, p: Plan)
    requires items != []
  {
    if items[|items| - 1].Orig? then |Originals(items)| <= p.keepOrigs
    else |Clones(items)| <= p.keepClones
  }

  /** Whether the fragment has somewhere to go: the last old item is still
      attached, or, with no old items, `originalRoot` is recorded. */
  predicate HasAnchor(items: seq<Item>, p: Plan, root: Option<nat>) {
    if items != [] then LastKept(items, p) else root.Some?
  }

  /** The new items once the fragment is placed (lines 102-107): after the
      last old item, or at the start of `originalRoot` when there were none.
      `after` on a detached node and `?.prepend` on `null` do nothing, and
      the fragment's nodes are then lost. */
  function Place(items: seq<Item>, p: Plan, root: Option<nat>): (r: seq<Item>)
    ensures r == Keep(items, p.keepOrigs, p.keepClones)
                 + (if HasAnchor(items, p, root) then p.restored + p.created else [])
  {
    var kept := Keep(items, p.keepOrigs, p.keepClones);
    var fragment := p.restored + p.created;
    if fragment == [] then kept
    else if items != [] then (if LastKept(items, p) then kept + fragment else kept)
    else if root.Some? then fragment
    else kept
  }

  /** One reconciliation pass for the current `count` attribute, parsed by
      `Number` (`None` is NaN). `container` is the parent of the first
      original, recorded as `originalRoot` when that original leaves. */
  function Pass(h: Host, count: Option<int>, container: nat): (r: Result<Host, Error>)
    ensures count.None? ==> r == Success(h)
    ensures r.Failure? <==> h.items == [] && h.stash == [] && count.Some? && count.value > 0
    ensures r.Success? ==> r.value.nextId >= h.nextId
  {
    match CountOf(count)
    case None => Success(h)
    case Some(c) =>
      assert h.items == [] <==> Originals(h.items) == [] && Clones(h.items) == [];
      match PlanPass(Originals(h.items), Clones(h.items), h.stash, c, h.nextId)
      case Failure(e) => Failure(e)
      case Success(p) =>
        var root := if p.recordRoot then Some(container) else h.originalRoot;
        Success(Host(Place(h.items, p, root), p.stash, root, h.nextId + |p.created|))
  }

  /** `attributeChangedCallback`: a change to `count` (unless to the empty
      string) or to `target` runs a pass; a change to `root`, or one whose
      old and new values agree, does nothing. */
  function AttributeChanged(h: Host, name: Attr, oldValue: Option<string>, newValue: Option<string>,
                            count: Option<int>, container: nat): (r: Result<Host, Error>)
    ensures oldValue == newValue ==> r == Success(h)
    ensures name == Root ==> r == Success(h)
    ensures name == Count && newValue == Some("") ==> r == Success(h)
    ensures oldValue != newValue && (name == Target || (name == Count && newValue != Some(""))) ==>
              r == Pass(h, count, container)
  {
    if oldValue == newValue then Success(h)
    else if (name == Count && newValue != Some("")) || name == Target then Pass(h, count, container)
    else Success(h)
  }
}

=== FILE: clone_content_proofs.dfy ===
/**
  Facts about the states `CloneContent` reaches through `count` changes.
 */
module CloneContentProofs {
  import opened Wrappers
  import opened CloneContent

  predicate AllOrig(s: seq<Item>) {
    forall i :: 0 <= i < |s| ==> s[i].Orig?
  }

  predicate AllClone(s: seq<Item>) {
    forall i :: 0 <= i < |s| ==> s[i].Clone?
  }

  /** A state every sequence of `count` changes keeps: originals before
      clones, each clone tagged with its 1-based position, only originals
      in the stash, no clone attached while something is stashed, and an
      `originalRoot` to restore into once every original has left. */
  ghost predicate Settled(h: Host) {
    && h.items == Originals(h.items) + Clones(h.items)
    && (forall i :: 0 <= i < |h.items| && h.items[i].Clone? ==> h.items[i].tag == i + 1)
    && AllOrig(h.stash)
    && (h.stash != [] ==> Clones(h.items) == [])
    && (h.items == [] && h.stash != [] ==> h.originalRoot.Some?)
  }

  /** Every original the element owns, attached ones first, in the order a
      restore brings them back. */
  function Pool(h: Host): seq<Item> {
    Originals(h.items) + h.stash
  }

  /** A fresh element whose query selects `k` originals. */
  function Initial(ids: seq<nat>, nextId: nat): (h: Host)
    ensures Settled(h)
    ensures |h.items| == |ids| && Pool(h) == h.items
    ensures (forall i, j :: 0 <= i < j < |ids| ==> ids[i] != ids[j]) ==>
      (forall i :: 0 <= i < |ids| ==> ids[i] < nextId) ==> Identified(h)
  {
    var items := seq(|ids|, i requires 0 <= i < |ids| => Orig(ids[i]));
    AllOrigPartition(items);
    Host(items, [], None, nextId)
  }

  // ---------------------------------------------------------------------
  // Partition helpers
  // ---------------------------------------------------------------------

  lemma {:induction false} AllOrigPartition(s: seq<Item>)
    requires AllOrig(s)
    ensures Originals(s) == s && Clones(s) == []
  {
    if s != [] {
      AllOrigPartition(s[1..]);
    }
  }

  lemma {:induction false} AllClonePartition(s: seq<Item>)
    requires AllClone(s)
    ensures Originals(s) == [] && Clones(s) == s
  {
    if s != [] {
      AllClonePartition(s[1..]);
    }
  }

  lemma {:induction false} OriginalsConcat(a: seq<Item>, b: seq<Item>)
    ensures Originals(a + b) == Originals(a) + Originals(b)
  {
    if a == [] {
      assert a + b == b;
    } else {
      var head := if a[0].Orig? then [a[0]] else [];
      assert (a + b)[0] == a[0];
      assert (a + b)[1..] == a[1..] + b;
      calc {
        Originals(a + b);
        head + Originals(a[1..] + b);
        { OriginalsConcat(a[1..], b); }
        head + (Originals(a[1..]) + Originals(b));
        (head + Originals(a[1..])) + Originals(b);
      }
    }
  }

  lemma {:induction false} ClonesConcat(a: seq<Item>, b: seq<Item>)
    ensures Clones(a + b) == Clones(a) + Clones(b)
  {
    if a == [] {
      assert a + b == b;
    } else {
      var head := if a[0].Clone? then [a[0]] else [];
      assert (a + b)[0] == a[0];
      assert (a + b)[1..] == a[1..] + b;
      calc {
        Clones(a + b);
        head + Clones(a[1..] + b);
        { ClonesConcat(a[1..], b); }
        head + (Clones(a[1..]) + Clones(b));
        (head + Clones(a[1..])) + Clones(b);
      }
    }
  }

  lemma {:induction false} KeepClones(cs: seq<Item>, ko: nat, kc: nat)
    requires AllClone(cs)
    ensures Keep(cs, ko, kc) == cs[..Min(kc, |cs|)]
  {
    if cs != [] {
      KeepClones(cs[1..], ko, if kc > 0 then kc - 1 else 0);
      if kc > 0 {
        assert cs[..Min(kc, |cs|)] == [cs[0]] + cs[1..][..Min(kc - 1, |cs| - 1)];
      }
    }
  }

  /** Keeping from originals-then-clones keeps a prefix of each part. */
  lemma {:induction false} KeepSplit(os: seq<Item>, cs: seq<Item>, ko: nat, kc: nat)
    requires AllOrig(os) && AllClone(cs)
    ensures Keep(os + cs, ko, kc) == os[..Min(ko, |os|)] + cs[..Min(kc, |cs|)]
  {
    if os == [] {
      assert os + cs == cs;
      KeepClones(cs, ko, kc);
    } else {
      assert (os + cs)[0] == os[0];
      assert (os + cs)[1..] == os[1..] + cs;
      KeepSplit(os[1..], cs, if ko > 0 then ko - 1 else 0, kc);
      if ko > 0 {
        assert os[..Min(ko, |os|)] == [os[0]] + os[1..][..Min(ko - 1, |os| - 1)];
      }
    }
  }

  /** The partition loses no item and invents none. */
  lemma {:induction false} PartitionIsPermutation(items: seq<Item>)
    ensures multiset(Originals(items)) + multiset(Clones(items)) == multiset(items)
  {
    if items != [] {
      PartitionIsPermutation(items[1..]);
      assert items == [items[0]] + items[1..];
    }
  }

  lemma SettledParts(h: Host)
    requires Settled(h)
    ensures AllOrig(Originals(h.items)) && AllClone(Clones(h.items))
    ensures h.items == [] <==> Originals(h.items) == [] && Clones(h.items) == []
  {
  }

  // ---------------------------------------------------------------------
  // The four shapes of a pass from a settled state
  // ---------------------------------------------------------------------

  /** Evict: `count` below the attached originals. Every clone goes, then
      the tail originals move to the front of the stash in document order;
      the container is recorded when the first original goes. */
  function Evicted(h: Host, c: nat, container: nat): Host
    requires c < |Originals(h.items)|
  {
    var O := Originals(h.items);
    Host(O[..c], O[c..] + h.stash, if c == 0 then Some(container) else h.originalRoot, h.nextId)
  }

  /** Trim: clones past `count` are popped off the tail. */
  function Trimmed(h: Host, c: nat): Host
    requires |Originals(h.items)| <= c <= |h.items|
  {
    var O := Originals(h.items);
    Host(O + Clones(h.items)[..c - |O|], h.stash, h.originalRoot, h.nextId)
  }

  /** Restore: stashed originals come back, from the front of the stash,
      after the attached ones. */
  function Restored(h: Host, c: nat): Host
    requires |Originals(h.items)| < c <= |Pool(h)|
  {
    var n := c - |Originals(h.items)|;
    Host(Originals(h.items) + h.stash[..n], h.stash[n..], h.originalRoot, h.nextId)
  }

  /** Grow: everything stashed comes back, then copies of the last item are
      appended, each tagged with its 1-based position. */
  function Grown(h: Host, c: nat): Host
    requires h.items != [] || h.stash != []
    requires c > |Pool(h)| + |Clones(h.items)|
  {
    var all := Pool(h) + Clones(h.items);
    Host(all + FreshClones(all[|all| - 1], |all|, c - |all|, h.nextId), [], h.originalRoot, h.nextId + (c - |all|))
  }

  lemma PassEvicts(h: Host, c: nat, container: nat)
    requires Settled(h) && c < |Originals(h.items)|
    ensures Pass(h, Some(c), container) == Success(Evicted(h, c, container))
  {
    var O, C, S := Originals(h.items), Clones(h.items), h.stash;
    SettledParts(h);
    PlanEvicts(O, C, S, c, h.nextId);
    var p := Plan([], [], c, 0, O[c..] + S, c == 0);
    PassWithPlan(h, c, container, p);
    KeepSplit(O, C, c, 0);
    assert Min(c, |O|) == c && C[..0] == [] && O[..c] + [] == O[..c];
  }

  lemma PlanEvicts(O: seq<Item>, C: seq<Item>, S: seq<Item>, c: nat, nextId: nat)
    requires c < |O|
    ensures PlanPass(O, C, S, c, nextId) == Success(Plan([], [], c, 0, O[c..] + S, c == 0))
  {
    assert RestoreCount(|O|, S, c) == 0;
    assert S[..0] == [] && S[0..] == S;
  }

  lemma PlanTrims(O: seq<Item>, C: seq<Item>, S: seq<Item>, c: nat, nextId: nat)
    requires |O| <= c <= |O| + |C|
    requires S == [] || c == |O|
    ensures PlanPass(O, C, S, c, nextId) == Success(Plan([], [], |O|, c - |O|, S, false))
  {
    assert RestoreCount(|O|, S, c) == 0;
    assert S[..0] == [] && S[0..] == S;
  }

  lemma PlanRestores(O: seq<Item>, C: seq<Item>, S: seq<Item>, c: nat, nextId: nat)
    requires C == [] && S != [] && |O| < c <= |O| + |S|
    ensures PlanPass(O, C, S, c, nextId) == Success(Plan(S[..c - |O|], [], |O|, 0, S[c - |O|..], false))
  {
    assert RestoreCount(|O|, S, c) == c - |O|;
  }

  lemma PlanGrows(O: seq<Item>, C: seq<Item>, S: seq<Item>, c: nat, nextId: nat, last: Item, total: nat)
    requires S != [] ==> C == []
    requires total == |O| + |S| + |C| && c > total
    requires O != [] || C != [] || S != []
    requires last == if C != [] then C[|C| - 1] else (O + S)[|O + S| - 1]
    ensures PlanPass(O, C, S, c, nextId) == Success(Plan(S, FreshClones(last, total, c - total, nextId), |O|, |C|, [], false))
  {
    assert RestoreCount(|O|, S, c) == |S|;
    assert S[..|S|] == S && S[|S|..] == [];
  }

  lemma PassWithPlan(h: Host, c: nat, container: nat, p: Plan)
    requires PlanPass(Originals(h.items), Clones(h.items), h.stash, c, h.nextId) == Success(p)
    ensures var root := if p.recordRoot then Some(container) else h.originalRoot;
      Pass(h, Some(c), container) == Success(Host(Place(h.items, p, root), p.stash, root, h.nextId + |p.created|))
  {
  }

  /** The fragment lands after the old items when the last one stayed. */
  lemma PlaceAfter(items: seq<Item>, p: Plan, root: Option<nat>)
    requires items != [] && LastKept(items, p)
    ensures Place(items, p, root) == Keep(items, p.keepOrigs, p.keepClones) + p.restored + p.created
  {
  }

  /** With no old items the fragment is prepended to a recorded root. */
  lemma PlaceIntoRoot(p: Plan, root: Option<nat>)
    requires root.Some?
    ensures Place([], p, root) == p.restored + p.created
  {
  }

  lemma PassTrims(h: Host, c: nat, container: nat)
    requires Settled(h)
    requires |Originals(h.items)| <= c <= |h.items|
    requires h.stash == [] || c == |Originals(h.items)|
    ensures Pass(h, Some(c), container) == Success(Trimmed(h, c))
  {
    var O, C, S := Originals(h.items), Clones(h.items), h.stash;
    SettledParts(h);
    PlanTrims(O, C, S, c, h.nextId);
    var p := Plan([], [], |O|, c - |O|, S, false);
    PassWithPlan(h, c, container, p);
    PlaceTrimmed(O, C, c - |O|, p, h.originalRoot);
  }

  lemma PlaceTrimmed(O: seq<Item>, C: seq<Item>, k: nat, p: Plan, root: Option<nat>)
    requires AllOrig(O) && AllClone(C) && k <= |C|
    requires p == Plan([], [], |O|, k, p.stash, false)
    ensures Place(O + C, p, root) == O + C[..k]
  {
    KeepSplit(O, C, |O|, k);
    assert O[..|O|] == O;
  }

  lemma PlaceRestored(items: seq<Item>, restored: seq<Item>, p: Plan, root: Option<nat>)
    requires AllOrig(items) && restored != []
    requires p == Plan(restored, [], |items|, 0, p.stash, false)
    requires items == [] ==> root.Some?
    ensures Place(items, p, root) == items + restored
  {
    AllOrigPartition(items);
    if items != [] {
      assert LastKept(items, p);
      PlaceAfter(items, p, root);
      KeepSplit(items, [], |items|, 0);
      assert items + [] == items && items[..|items|] == items;
    } else {
      PlaceIntoRoot(p, root);
    }
  }

  lemma PlaceGrownAfter(O: seq<Item>, C: seq<Item>, S: seq<Item>, grown: seq<Item>, p: Plan, root: Option<nat>)
    requires AllOrig(O) && AllClone(C) && O + C != []
    requires S != [] ==> C == []
    requires p == Plan(S, grown, |O|, |C|, [], false)
    ensures Place(O + C, p, root) == O + S + C + grown
  {
    LastOfParts(O, C, p);
    PlaceAfter(O + C, p, root);
    KeepSplit(O, C, |O|, |C|);
    assert Keep(O + C, |O|, |C|) == O + C by {
      assert O[..|O|] == O && C[..|C|] == C;
    }
    if S == [] {
      assert O + C + S == O + C && O + S == O;
    } else {
      assert O + C == O && O + S + C == O + S;
    }
  }

  lemma LastOfParts(O: seq<Item>, C: seq<Item>, p: Plan)
    requires AllOrig(O) && AllClone(C) && O + C != []
    requires p.keepOrigs == |O| && p.keepClones == |C|
    ensures LastKept(O + C, p)
  {
    PartitionConcatParts(O, C);
    if C == [] {
      assert O + C == O;
    } else {
      assert (O + C)[|O + C| - 1] == C[|C| - 1];
    }
  }

  lemma PartitionConcatParts(O: seq<Item>, C: seq<Item>)
    requires AllOrig(O) && AllClone(C)
    ensures Originals(O + C) == O && Clones(O + C) == C
  {
    OriginalsConcat(O, C);
    ClonesConcat(O, C);
    AllOrigPartition(O);
    AllClonePartition(C);
  }

  lemma PlaceGrown(items: seq<Item>, S: seq<Item>, grown: seq<Item>, p: Plan, root: Option<nat>)
    requires items == Originals(items) + Clones(items)
    requires AllOrig(Originals(items)) && AllClone(Clones(items))
    requires S != [] ==> Clones(items) == []
    requires p == Plan(S, grown, |Originals(items)|, |Clones(items)|, [], false)
    requires items == [] ==> root.Some?
    ensures Place(items, p, root) == Originals(items) + S + Clones(items) + grown
  {
    var O, C := Originals(items), Clones(items);
    if items != [] {
      PlaceGrownAfter(O, C, S, grown, p, root);
    } else {
      PlaceIntoRoot(p, root);
      assert O + S + C + grown == S + grown;
    }
  }

  lemma LastOfThree(O: seq<Item>, S: seq<Item>, C: seq<Item>)
    requires O + S + C != []
    ensures (O + S + C)[|O + S + C| - 1] == if C != [] then C[|C| - 1] else (O + S)[|O + S| - 1]
  {
  }

  lemma PassRestores(h: Host, c: nat, container: nat)
    requires Settled(h) && h.stash != []
    requires |Originals(h.items)| < c <= |Pool(h)|
    ensures Pass(h, Some(c), container) == Success(Restored(h, c))
  {
    var O, C, S := Originals(h.items), Clones(h.items), h.stash;
    SettledParts(h);
    PlanRestores(O, C, S, c, h.nextId);
    var n := c - |O|;
    var p := Plan(S[..n], [], |O|, 0, S[n..], false);
    PassWithPlan(h, c, container, p);
    assert h.items == O;
    PlaceRestored(h.items, S[..n], p, h.originalRoot);
  }

  lemma PassGrowsCore(h: Host, c: nat, container: nat, S: seq<Item>, grown: seq<Item>, p: Plan)
    requires h.items == Originals(h.items) + Clones(h.items)
    requires AllOrig(Originals(h.items)) && AllClone(Clones(h.items))
    requires S != [] ==> Clones(h.items) == []
    requires h.items == [] ==> h.originalRoot.Some?
    requires p == Plan(S, grown, |Originals(h.items)|, |Clones(h.items)|, [], false)
    requires PlanPass(Originals(h.items), Clones(h.items), h.stash, c, h.nextId) == Success(p)
    ensures Pass(h, Some(c), container) ==
      Success(Host(Originals(h.items) + S + Clones(h.items) + grown, [], h.originalRoot, h.nextId + |grown|))
  {
    PassWithPlan(h, c, container, p);
    PlaceGrown(h.items, S, grown, p, h.originalRoot);
  }

  lemma PassGrows(h: Host, c: nat, container: nat)
    requires Settled(h)
    requires c > |Pool(h)| + |Clones(h.items)|
    requires h.items != [] || h.stash != []
    ensures Pass(h, Some(c), container) == Success(Grown(h, c))
  {
    var O, C, S := Originals(h.items), Clones(h.items), h.stash;
    SettledParts(h);
    var total := |O| + |S| + |C|;
    var all := O + S + C;
    var last := if C != [] then C[|C| - 1] else (O + S)[|O + S| - 1];
    LastOfThree(O, S, C);
    PlanGrows(O, C, S, c, h.nextId, last, total);
    var grown := FreshClones(last, total, c - total, h.nextId);
    var p := Plan(S, grown, |O|, |C|, [], false);
    PassGrowsCore(h, c, container, S, grown, p);
    assert all == Pool(h) + Clones(h.items) && |all| == total;
    assert all[|all| - 1] == last;
    assert Grown(h, c) == Host(all + grown, [], h.originalRoot, h.nextId + |grown|);
  }

  // ---------------------------------------------------------------------
  // Every pass from a settled state settles again
  // ---------------------------------------------------------------------

  lemma AllOrigPrefix(s: seq<Item>, k: nat)
    requires AllOrig(s) && k <= |s|
    ensures AllOrig(s[..k]) && AllOrig(s[k..])
  {
  }

  lemma EvictedSettled(h: Host, c: nat, container: nat)
    requires Settled(h) && c < |Originals(h.items)|
    ensures var h' := Evicted(h, c, container);
      && Settled(h') && |h'.items| == c && Pool(h') == Pool(h)
      && h'.items == Pool(h)[..c] && h'.stash == Pool(h)[c..]
      && Clones(h'.items) == []
  {
    var O, S := Originals(h.items), h.stash;
    var h' := Evicted(h, c, container);
    SettledParts(h);
    AllOrigPrefix(O, c);
    AllOrigPartition(O[..c]);
    assert AllOrig(h'.stash);
    assert O[..c] + (O[c..] + S) == O + S;
    assert (O + S)[..c] == O[..c];
    assert (O + S)[c..] == O[c..] + S;
  }

  lemma SettledAfterEvict(h: Host, c: nat, container: nat)
    requires Settled(h) && c < |Originals(h.items)|
    ensures Resettles(h, Pass(h, Some(c), container), c)
  {
    PassEvicts(h, c, container);
    EvictedSettled(h, c, container);
  }

  lemma TrimmedSettled(h: Host, c: nat)
    requires Settled(h)
    requires |Originals(h.items)| <= c <= |h.items|
    requires h.stash == [] || c == |Originals(h.items)|
    ensures var h' := Trimmed(h, c);
      && Settled(h') && |h'.items| == c && Pool(h') == Pool(h)
      && (c <= |Pool(h)| ==> h'.items == Pool(h)[..c] && h'.stash == Pool(h)[c..])
      && Clones(h'.items) <= Clones(h.items)
  {
    var O, C, S := Originals(h.items), Clones(h.items), h.stash;
    var h' := Trimmed(h, c);
    SettledParts(h);
    var k := c - |O|;
    assert AllClone(C[..k]);
    assert h'.items == h.items[..c] by {
      assert h.items == O + C;
      assert (O + C)[..c] == O + C[..k];
    }
    SettledFromParts(h', O, C[..k]);
    if c <= |Pool(h)| {
      assert k == 0 && O + C[..0] == O;
      assert (O + S)[..|O|] == O && (O + S)[|O|..] == S;
    }
  }

  lemma SettledAfterTrim(h: Host, c: nat, container: nat)
    requires Settled(h)
    requires |Originals(h.items)| <= c <= |h.items|
    requires h.stash == [] || c == |Originals(h.items)|
    ensures Resettles(h, Pass(h, Some(c), container), c)
  {
    PassTrims(h, c, container);
    TrimmedSettled(h, c);
  }

  lemma RestoredSettled(h: Host, c: nat)
    requires Settled(h) && h.stash != []
    requires |Originals(h.items)| < c <= |Pool(h)|
    ensures var h' := Restored(h, c);
      && Settled(h') && |h'.items| == c && Pool(h') == Pool(h)
      && h'.items == Pool(h)[..c] && h'.stash == Pool(h)[c..]
      && Clones(h'.items) == []
  {
    var O, S := Originals(h.items), h.stash;
    SettledParts(h);
    var n := c - |O|;
    AllOrigPrefix(S, n);
    assert AllOrig(O + S[..n]);
    AllOrigPartition(O + S[..n]);
    assert O + S[..n] + S[n..] == O + S;
    assert (O + S)[..c] == O + S[..n];
    assert (O + S)[c..] == S[n..];
  }

  lemma SettledAfterRestore(h: Host, c: nat, container: nat)
    requires Settled(h) && h.stash != []
    requires |Originals(h.items)| < c <= |Pool(h)|
    ensures Resettles(h, Pass(h, Some(c), container), c)
  {
    PassRestores(h, c, container);
    RestoredSettled(h, c);
  }

  lemma FreshClonesTagged(last: Item, all: seq<Item>, total: nat, n: nat, nextId: nat)
    requires total == |all|
    ensures var g := FreshClones(last, total, n, nextId);
      AllClone(g) && forall i :: |all| <= i < |all| + |g| ==> (all + g)[i].tag == i + 1
  {
  }

  /** Clones keep their positions when stashed originals and new clones
      are added around them, and new clones are tagged with theirs. */
  lemma GrownTags(O: seq<Item>, S: seq<Item>, C: seq<Item>, last: Item, n: nat, nextId: nat)
    requires AllOrig(O) && AllOrig(S) && (S != [] ==> C == [])
    requires forall i :: 0 <= i < |O + C| && (O + C)[i].Clone? ==> (O + C)[i].tag == i + 1
    ensures var all := O + S + C;
      var items := all + FreshClones(last, |all|, n, nextId);
      forall i :: 0 <= i < |items| && items[i].Clone? ==> items[i].tag == i + 1
  {
    var all := O + S + C;
    var g := FreshClones(last, |all|, n, nextId);
    FreshClonesTagged(last, all, |all|, n, nextId);
    var items: seq<Item> := all + g;
    forall i | 0 <= i < |items| && items[i].Clone?
      ensures items[i].tag == i + 1
    {
      if i < |all| {
        assert items[i] == all[i];
        if S == [] {
          assert all == O + C;
        }
      }
    }
  }

  lemma SettledFromParts(h: Host, O: seq<Item>, C: seq<Item>)
    requires AllOrig(O) && AllClone(C) && h.items == O + C
    requires forall i :: 0 <= i < |h.items| && h.items[i].Clone? ==> h.items[i].tag == i + 1
    requires AllOrig(h.stash)
    requires h.stash != [] ==> C == []
    requires h.items == [] && h.stash != [] ==> h.originalRoot.Some?
    ensures Settled(h) && Originals(h.items) == O && Clones(h.items) == C
  {
    PartitionConcatParts(O, C);
  }

  /** The grown layout, stated over its parts. */
  lemma SettledGrownParts(O: seq<Item>, S: seq<Item>, C: seq<Item>, g: seq<Item>, root: Option<nat>, nextId: nat, n: nat)
    requires AllOrig(O) && AllOrig(S) && AllClone(C) && (S != [] ==> C == [])
    requires forall i :: 0 <= i < |O + C| && (O + C)[i].Clone? ==> (O + C)[i].tag == i + 1
    requires O + S + C != []
    requires g == FreshClones((O + S + C)[|O + S + C| - 1], |O + S + C|, n, nextId)
    ensures var h' := Host(O + S + C + g, [], root, nextId + n);
      Settled(h') && Originals(h'.items) == O + S && Clones(h'.items) == C + g
  {
    var all := O + S + C;
    var last := all[|all| - 1];
    GrownTags(O, S, C, last, n, nextId);
    FreshClonesTagged(last, all, |all|, n, nextId);
    assert AllClone(C + g);
    assert AllOrig(O + S);
    assert all + g == (O + S) + (C + g);
    SettledFromParts(Host(all + g, [], root, nextId + n), O + S, C + g);
  }

  lemma GrownSettled(h: Host, c: nat)
    requires Settled(h) && (h.items != [] || h.stash != [])
    requires c > |Pool(h)| + |Clones(h.items)|
    ensures var h' := Grown(h, c);
      Settled(h') && |h'.items| == c && Pool(h') == Pool(h) && Clones(h.items) <= Clones(h'.items)
  {
    var O, C, S := Originals(h.items), Clones(h.items), h.stash;
    SettledParts(h);
    var all := O + S + C;
    var n := c - |all|;
    var g := FreshClones(all[|all| - 1], |all|, n, h.nextId);
    SettledGrownParts(O, S, C, g, h.originalRoot, h.nextId, n);
    assert Grown(h, c) == Host(O + S + C + g, [], h.originalRoot, h.nextId + n);
  }

  lemma SettledAfterGrow(h: Host, c: nat, container: nat)
    requires Settled(h)
    requires c > |Pool(h)| + |Clones(h.items)|
    requires h.items != [] || h.stash != []
    ensures Resettles(h, Pass(h, Some(c), container), c)
  {
    PassGrows(h, c, container);
    GrownSettled(h, c);
  }

  /** What a `count` change to `c` from the settled state `h` yields: a
      failure exactly when there is nothing to copy, otherwise a settled
      state with `c` items over the same originals, whose first `c` pool
      entries are attached when there are enough of them, and whose clones
      only grew or shrank at the tail. */
  ghost predicate Resettles(h: Host, r: Result<Host, Error>, c: nat) {
    && (r.Failure? <==> h.items == [] && h.stash == [] && c > 0)
    && (r.Success? ==> Settled(r.value) && |r.value.items| == c && Pool(r.value) == Pool(h))
    && (r.Success? && c <= |Pool(h)| ==> r.value.items == Pool(h)[..c] && r.value.stash == Pool(h)[c..])
    && (r.Success? ==> Clones(r.value.items) <= Clones(h.items) || Clones(h.items) <= Clones(r.value.items))
  }

  /** A `count` change from a settled state: the pass fails exactly when
      there is nothing to copy; otherwise it settles again with `count`
      items, the same originals in the same order, and clones added or
      dropped at the tail only. */
  lemma PassKeepsSettled(h: Host, n: int, container: nat)
    requires Settled(h)
    ensures var r := Pass(h, Some(n), container);
      var c := if n < 0 then 0 else n;
      && (r.Failure? <==> h.items == [] && h.stash == [] && c > 0)
      && (r.Success? ==> Settled(r.value) && |r.value.items| == c && Pool(r.value) == Pool(h))
      && (r.Success? && c <= |Pool(h)| ==> r.value.items == Pool(h)[..c] && r.value.stash == Pool(h)[c..])
      && (r.Success? ==> Clones(r.value.items) <= Clones(h.items) || Clones(h.items) <= Clones(r.value.items))
  {
    var c: nat := if n < 0 then 0 else n;
    CountClamped(h, n, container);
    CountResettles(h, c, container);
  }

  /** A negative `count` acts as 0. */
  lemma CountClamped(h: Host, n: int, container: nat)
    ensures Pass(h, Some(n), container) == Pass(h, Some(if n < 0 then 0 else n), container)
  {
    assert CountOf(Some(n)) == CountOf(Some(if n < 0 then 0 else n));
  }

  lemma CountResettles(h: Host, c: nat, container: nat)
    requires Settled(h)
    ensures Resettles(h, Pass(h, Some(c), container), c)
  {
    var O, C, S := Originals(h.items), Clones(h.items), h.stash;
    SettledParts(h);
    if c < |O| {
      SettledAfterEvict(h, c, container);
    } else if (S == [] || c == |O|) && c <= |O| + |C| {
      SettledAfterTrim(h, c, container);
    } else if S != [] && c <= |O| + |S| {
      SettledAfterRestore(h, c, container);
    } else if h.items != [] || S != [] {
      SettledAfterGrow(h, c, container);
    }
  }

  // ---------------------------------------------------------------------
  // Identities
  // ---------------------------------------------------------------------

  /** Every node the element owns has an identity of its own, below the
      next one `cloneNode` hands out. */
  ghost predicate Identified(h: Host) {
    DistinctIds(h.items + h.stash) && IdsBelow(h.items + h.stash, h.nextId)
  }

  /** `h'` owns distinct identities, and every node it owns that `h` did
      not is a new clone: its identity was never handed out before. */
  ghost predicate KeepsIdentities(h: Host, h': Host) {
    && Identified(h')
    && h'.nextId >= h.nextId
    && forall x :: x in h'.items + h'.stash ==> x in h.items + h.stash || (x.Clone? && x.id >= h.nextId)
  }

  /** `KeepsIdentities` from facts about the two node lists alone. */
  lemma KeepsIdentitiesOfLists(h: Host, h': Host, A: seq<Item>, B: seq<Item>)
    requires h.items + h.stash == A && h'.items + h'.stash == B && h'.nextId >= h.nextId
    requires DistinctIds(B) && IdsBelow(B, h'.nextId)
    requires forall x :: x in B ==> x in A || (x.Clone? && x.id >= h.nextId)
    ensures KeepsIdentities(h, h')
  {
  }

  /** Dropping tail clones keeps the identities distinct and known. */
  lemma DropClones(O: seq<Item>, C: seq<Item>, S: seq<Item>, k: nat, bound: nat)
    requires k <= |C| && DistinctIds(O + C + S) && IdsBelow(O + C + S, bound)
    ensures DistinctIds(O + C[..k] + S) && IdsBelow(O + C[..k] + S, bound)
    ensures forall x :: x in O + C[..k] + S ==> x in O + C + S
  {
    var A, B := O + C + S, O + C[..k] + S;
    var d := |C| - k;
    forall i | 0 <= i < |B|
      ensures B[i] == A[if i < |O| + k then i else i + d]
    {
    }
    forall i, j | 0 <= i < j < |B|
      ensures B[i].id != B[j].id
    {
      assert B[i] == A[if i < |O| + k then i else i + d];
      assert B[j] == A[if j < |O| + k then j else j + d];
    }
    forall x | x in B
      ensures x in A
    {
      var i :| 0 <= i < |B| && B[i] == x;
      assert A[if i < |O| + k then i else i + d] == x;
    }
  }

  /** Appending fresh clones keeps the identities distinct. */
  lemma AppendFresh(A: seq<Item>, F: seq<Item>, bound: nat)
    requires DistinctIds(A) && IdsBelow(A, bound) && DistinctIds(F)
    requires forall k :: 0 <= k < |F| ==> bound <= F[k].id < bound + |F| && F[k].Clone?
    ensures DistinctIds(A + F) && IdsBelow(A + F, bound + |F|)
    ensures forall x :: x in A + F ==> x in A || (x.Clone? && x.id >= bound)
  {
    forall i, j | 0 <= i < j < |A + F|
      ensures (A + F)[i].id != (A + F)[j].id
    {
      if j >= |A| && i < |A| {
        assert (A + F)[i] == A[i] && (A + F)[j] == F[j - |A|];
      }
    }
    forall x | x in A + F && x !in A
      ensures x.Clone? && x.id >= bound
    {
      var k :| 0 <= k < |A + F| && (A + F)[k] == x;
      assert (A + F)[k] == F[k - |A|];
    }
  }

  /** A pass that keeps the originals, a prefix of the clones and the stash. */
  lemma DroppedIdentities(h: Host, h': Host, k: nat)
    requires Settled(h) && Identified(h) && k <= |Clones(h.items)| && h'.nextId == h.nextId
    requires h'.items + h'.stash == Originals(h.items) + Clones(h.items)[..k] + h.stash
    ensures KeepsIdentities(h, h')
  {
    var O, C, S := Originals(h.items), Clones(h.items), h.stash;
    assert h.items + h.stash == O + C + S;
    DropClones(O, C, S, k, h.nextId);
    KeepsIdentitiesOfLists(h, h', O + C + S, O + C[..k] + S);
  }

  lemma GrownIdentities(h: Host, c: nat)
    requires Settled(h) && Identified(h)
    requires h.items != [] || h.stash != []
    requires c > |Pool(h)| + |Clones(h.items)|
    ensures KeepsIdentities(h, Grown(h, c))
  {
    var all := Pool(h) + Clones(h.items);
    PoolAndClones(h);
    var F := FreshClones(all[|all| - 1], |all|, c - |all|, h.nextId);
    AppendFresh(all, F, h.nextId);
    KeepsIdentitiesOfLists(h, Grown(h, c), all, all + F);
  }

  /** In a settled state, the pool and the clones are every node owned. */
  lemma PoolAndClones(h: Host)
    requires Settled(h)
    ensures Pool(h) + Clones(h.items) == h.items + h.stash
  {
    var O, C, S := Originals(h.items), Clones(h.items), h.stash;
    if S == [] {
      assert Pool(h) + C == O + C;
    } else {
      assert C == [];
      assert Pool(h) + C == O + S;
    }
  }

  /** A pass result that, when it succeeds, keeps the identities of `h`. */
  ghost predicate PassKeepsIds(h: Host, r: Result<Host, Error>) {
    r.Success? ==> KeepsIdentities(h, r.value)
  }

  lemma IdentitiesAfterEvict(h: Host, c: nat, container: nat)
    requires Settled(h) && Identified(h) && c < |Originals(h.items)|
    ensures PassKeepsIds(h, Pass(h, Some(c), container))
  {
    PassEvicts(h, c, container);
    EvictedIdentities(h, c, container);
  }

  lemma EvictedIdentities(h: Host, c: nat, container: nat)
    requires Settled(h) && Identified(h) && c < |Originals(h.items)|
    ensures KeepsIdentities(h, Evicted(h, c, container))
  {
    var O, C, S := Originals(h.items), Clones(h.items), h.stash;
    EvictedLists(O, C, S, c);
    DroppedIdentities(h, Evicted(h, c, container), 0);
  }

  lemma EvictedLists(O: seq<Item>, C: seq<Item>, S: seq<Item>, c: nat)
    requires c <= |O|
    ensures O[..c] + (O[c..] + S) == O + C[..0] + S
  {
    assert C[..0] == [];
    assert O[..c] + O[c..] == O;
  }

  lemma IdentitiesAfterTrim(h: Host, c: nat, container: nat)
    requires Settled(h) && Identified(h)
    requires |Originals(h.items)| <= c <= |h.items|
    requires h.stash == [] || c == |Originals(h.items)|
    ensures PassKeepsIds(h, Pass(h, Some(c), container))
  {
    PassTrims(h, c, container);
    DroppedIdentities(h, Trimmed(h, c), c - |Originals(h.items)|);
  }

  lemma IdentitiesAfterRestore(h: Host, c: nat, container: nat)
    requires Settled(h) && Identified(h) && h.stash != []
    requires |Originals(h.items)| < c <= |Pool(h)|
    ensures PassKeepsIds(h, Pass(h, Some(c), container))
  {
    PassRestores(h, c, container);
    RestoredIdentities(h, c);
  }

  lemma RestoredIdentities(h: Host, c: nat)
    requires Settled(h) && Identified(h)
    requires |Originals(h.items)| < c <= |Pool(h)|
    ensures KeepsIdentities(h, Restored(h, c))
  {
    var O, C, S := Originals(h.items), Clones(h.items), h.stash;
    RestoredLists(O, C, S, c - |O|);
    DroppedIdentities(h, Restored(h, c), 0);
  }

  lemma RestoredLists(O: seq<Item>, C: seq<Item>, S: seq<Item>, k: nat)
    requires k <= |S|
    ensures (O + S[..k]) + S[k..] == O + C[..0] + S
  {
    assert C[..0] == [];
    assert S[..k] + S[k..] == S;
  }

  lemma IdentitiesAfterGrow(h: Host, c: nat, container: nat)
    requires Settled(h) && Identified(h)
    requires c > |Pool(h)| + |Clones(h.items)|
    requires h.items != [] || h.stash != []
    ensures PassKeepsIds(h, Pass(h, Some(c), container))
  {
    PassGrows(h, c, container);
    GrownIdentities(h, c);
  }

  lemma CountKeepsIdentities(h: Host, c: nat, container: nat)
    requires Settled(h) && Identified(h)
    ensures PassKeepsIds(h, Pass(h, Some(c), container))
  {
    var O, C, S := Originals(h.items), Clones(h.items), h.stash;
    SettledParts(h);
    if c < |O| {
      IdentitiesAfterEvict(h, c, container);
    } else if (S == [] || c == |O|) && c <= |O| + |C| {
      IdentitiesAfterTrim(h, c, container);
    } else if S != [] && c <= |O| + |S| {
      IdentitiesAfterRestore(h, c, container);
    } else if h.items != [] || S != [] {
      IdentitiesAfterGrow(h, c, container);
    }
  }

  /** One `count` change from a settled state whose nodes have distinct
      identities: the nodes still have distinct identities, and a node the
      element did not own before is a new one, so no identity is reused. */
  lemma PassKeepsIdentities(h: Host, n: int, container: nat)
    requires Settled(h) && Identified(h)
    ensures var r := Pass(h, Some(n), container);
      r.Success? ==> KeepsIdentities(h, r.value)
  {
    CountClamped(h, n, container);
    CountKeepsIdentities(h, if n < 0 then 0 else n, container);
  }

  // ---------------------------------------------------------------------
  // Consequences
  // ---------------------------------------------------------------------

  /** Within the originals the element owns, the attached items and the
      stash depend only on the last `count`, not on the counts before it:
      lowering and then raising `count` brings back the very same nodes. */
  lemma CountPathIndependent(h: Host, c1: nat, c2: nat, container: nat)
    requires Settled(h) && c1 <= |Pool(h)| && c2 <= |Pool(h)|
    ensures Pass(h, Some(c1), container).Success?
    ensures var h1 := Pass(h, Some(c1), container).value;
      var r := Pass(h1, Some(c2), container);
      && r.Success? && Pass(h, Some(c2), container).Success?
      && r.value.items == Pass(h, Some(c2), container).value.items
      && r.value.stash == Pass(h, Some(c2), container).value.stash
  {
    PassKeepsSettled(h, c1, container);
    var h1 := Pass(h, Some(c1), container).value;
    PassKeepsSettled(h1, c2, container);
    PassKeepsSettled(h, c2, container);
  }

  /** Three originals and `count` 5: two copies of the third original are
      appended, tagged with their positions 4 and 5. */
  lemma GrowScenario()
    ensures Pass(Initial([1, 2, 3], 10), Some(5), 0) ==
      Success(Host([Orig(1), Orig(2), Orig(3), Clone(10, 4, 3), Clone(11, 5, 3)], [], None, 12))
  {
    var h := Initial([1, 2, 3], 10);
    InitialThree();
    PassGrows(h, 5, 0);
    GrownThree();
  }

  lemma InitialThree()
    ensures var O := [Orig(1), Orig(2), Orig(3)];
      Initial([1, 2, 3], 10) == Host(O, [], None, 10) && Originals(O) == O && Clones(O) == []
  {
    var O := [Orig(1), Orig(2), Orig(3)];
    assert Initial([1, 2, 3], 10).items == O;
    AllOrigPartition(O);
  }

  lemma GrownThree()
    ensures Grown(Host([Orig(1), Orig(2), Orig(3)], [], None, 10), 5) ==
      Host([Orig(1), Orig(2), Orig(3), Clone(10, 4, 3), Clone(11, 5, 3)], [], None, 12)
  {
    var O := [Orig(1), Orig(2), Orig(3)];
    AllOrigPartition(O);
    var g := FreshClones(Orig(3), 3, 2, 10);
    assert g[0] == Clone(10, 4, 3) && g[1] == Clone(11, 5, 3);
    assert O + g == [Orig(1), Orig(2), Orig(3), Clone(10, 4, 3), Clone(11, 5, 3)];
  }

  /** Three originals and `count` 1: the last two are stashed in order. */
  lemma ShrinkScenario()
    ensures Pass(Initial([1, 2, 3], 10), Some(1), 0) ==
      Success(Host([Orig(1)], [Orig(2), Orig(3)], None, 10))
  {
    var h := Initial([1, 2, 3], 10);
    var O := [Orig(1), Orig(2), Orig(3)];
    assert h.items == O;
    AllOrigPartition(O);
    PassEvicts(h, 1, 0);
    assert O[..1] == [Orig(1)] && O[1..] + [] == [Orig(2), Orig(3)];
  }

  /** `count` 0 empties the element and records where to restore into;
      `count` 2 afterwards brings the first two originals back. */
  lemma EmptyAndRefillScenario()
    ensures Pass(Initial([1, 2, 3], 10), Some(0), 7) ==
      Success(Host([], [Orig(1), Orig(2), Orig(3)], Some(7), 10))
    ensures Pass(Host([], [Orig(1), Orig(2), Orig(3)], Some(7), 10), Some(2), 7) ==
      Success(Host([Orig(1), Orig(2)], [Orig(3)], Some(7), 10))
  {
    EmptyScenario();
    RefillScenario();
  }

  lemma EmptyScenario()
    ensures Pass(Initial([1, 2, 3], 10), Some(0), 7) ==
      Success(Host([], [Orig(1), Orig(2), Orig(3)], Some(7), 10))
  {
    var h := Initial([1, 2, 3], 10);
    var O := [Orig(1), Orig(2), Orig(3)];
    assert h.items == O;
    AllOrigPartition(O);
    PassEvicts(h, 0, 7);
    assert O[..0] == [] && O[0..] + [] == O;
  }

  lemma RefillScenario()
    ensures Pass(Host([], [Orig(1), Orig(2), Orig(3)], Some(7), 10), Some(2), 7) ==
      Success(Host([Orig(1), Orig(2)], [Orig(3)], Some(7), 10))
  {
    var O := [Orig(1), Orig(2), Orig(3)];
    var e := Host([], O, Some(7), 10);
    AllOrigPartition(O);
    assert Settled(e);
    PassRestores(e, 2, 7);
    assert [] + O[..2] == [Orig(1), Orig(2)] && O[2..] == [Orig(3)];
  }
}

=== FILE: input_bus.dfy ===
/**
  The value bus of src/custom-inputs.js: the module-level `inputMap`, the
  clamp applied by `updateInputSource`, the `matchesScope` rule, and the
  subscriptions `getInputValue` registers (one initial delivery, then every
  `input update` event, each filtered by `!==` against the last value the
  subscription delivered).

  The DOM is abstract: elements are numbers, `closest('input-scope')` is
  `Dom.scopeOf` and `matches(selector)` is `Dom.matches`.
 */
module InputBus {
  import opened Wrappers

  // ---------------------------------------------------------------------
  // Values
  // ---------------------------------------------------------------------

  /** A JavaScript value as the bus carries it. Numbers are integers and
      `Num(None)` is NaN. */
  datatype JsValue = Undefined | Str(s: string) | Num(n: Option<int>)

  const NaN: JsValue := Num(None)

  /** `a === b`: NaN equals nothing, not even itself. */
  predicate StrictEquals(a: JsValue, b: JsValue) {
    match (a, b)
    case (Undefined, Undefined) => true
    case (Str(x), Str(y)) => x == y
    case (Num(Some(x)), Num(Some(y))) => x == y
    case _ => false
  }

  /** `===` is structural equality everywhere except at NaN. */
  lemma StrictEqualsIsEqualityButNaN(a: JsValue, b: JsValue)
    ensures StrictEquals(a, b) <==> a == b && a != NaN
  {
  }

  /** Truthiness, for `x || fallback`: `undefined`, `""`, `0` and NaN are falsy. */
  predicate Truthy(v: JsValue) {
    match v
    case Undefined => false
    case Str(s) => s != ""
    case Num(n) => n.Some? && n.value != 0
  }

  /** `a || b`. */
  function Or(a: JsValue, b: JsValue): (r: JsValue)
    ensures Truthy(a) ==> r == a
    ensures !Truthy(a) ==> r == b
  {
    if Truthy(a) then a else b
  }

  /** `Math.min(a, b)` on numbers already passed through `Number()`: NaN
      if either is NaN, otherwise the smaller. */
  function MathMin(a: Option<int>, b: Option<int>): (r: Option<int>)
    ensures r.None? <==> a.None? || b.None?
    ensures r.Some? ==> r.value <= a.value && r.value <= b.value
    ensures r.Some? ==> r.value == a.value || r.value == b.value
  {
    if a.Some? && b.Some? then Some(if a.value <= b.value then a.value else b.value) else None
  }

  /** The value `updateInputSource` stores for an input whose `max` and
      `value` properties are the given strings; `maxNumber` and
      `valueNumber` are what `Number()` makes of them. */
  function SourceValue(max: string, value: string, maxNumber: Option<int>, valueNumber: Option<int>): (r: JsValue)
    ensures max == "" ==> r == Str(value)
    ensures max != "" ==> r.Num? && (r == NaN <==> maxNumber.None? || valueNumber.None?)
    ensures max != "" && r != NaN ==> r.n.value <= maxNumber.value && r.n.value <= valueNumber.value
    ensures max != "" && r != NaN ==> r.n.value == maxNumber.value || r.n.value == valueNumber.value
  {
    if max != "" then Num(MathMin(maxNumber, valueNumber)) else Str(value)
  }

  // ---------------------------------------------------------------------
  // The abstract DOM and the scope rule
  // ---------------------------------------------------------------------

  /** What the bus and `InputValue` ask of the document: the nearest
      `input-scope` ancestor-or-self, selector matching, `querySelectorAll`
      inside an element, and whether an element has a `value` property. */
  datatype Dom = Dom(scopeOf: nat -> Option<nat>,
                     matches: (nat, string) -> bool,
                     query: (nat, string) -> seq<nat>,
                     hasValue: nat -> bool)

  /** `matchesScope`: inside an `input-scope` only inputs of the same
      nearest scope are seen; outside any scope every input is. */
  predicate MatchesScope(dom: Dom, output: nat, input: nat, selector: string) {
    match dom.scopeOf(output)
    case Some(scope) => dom.scopeOf(input) == Some(scope) && dom.matches(input, selector)
    case None => dom.matches(input, selector)
  }

  /** The scope rule, stated the other way round: a matching input is
      refused exactly when the output is scoped and the input is not in
      that scope. */
  lemma MatchesScopeRule(dom: Dom, output: nat, input: nat, selector: string)
    ensures MatchesScope(dom, output, input, selector) <==>
      dom.matches(input, selector) && (dom.scopeOf(output) == None || dom.scopeOf(input) == dom.scopeOf(output))
  {
  }

  // ---------------------------------------------------------------------
  // `inputMap`: an insertion-ordered map
  // ---------------------------------------------------------------------

  /** The entries of `inputMap` in insertion order. */
  type Entries = seq<(nat, JsValue)>

  function Keys(m: Entries): (ks: seq<nat>)
    ensures |ks| == |m| && forall i :: 0 <= i < |m| ==> ks[i] == m[i].0
  {
    if m == [] then [] else [m[0].0] + Keys(m[1..])
  }

  predicate DistinctKeys(m: Entries) {
    forall i, j :: 0 <= i < j < |m| ==> m[i].0 != m[j].0
  }

  /** `inputMap.get(k)`: `undefined` for an input never stored. */
  function Lookup(m: Entries, k: nat): (v: JsValue)
    ensures k !in Keys(m) ==> v == Undefined
    ensures DistinctKeys(m) ==> forall i :: 0 <= i < |m| && m[i].0 == k ==> v == m[i].1
  {
    if m == [] then Undefined
    else if m[0].0 == k then m[0].1
    else Lookup(m[1..], k)
  }

  /** `inputMap.set(k, v)`: an existing key keeps its place, a new one is
      appended. */
  function Store(m: Entries, k: nat, v: JsValue): (r: Entries)
    ensures Keys(r) == if k in Keys(m) then Keys(m) else Keys(m) + [k]
    ensures DistinctKeys(m) ==> DistinctKeys(r)
  {
    if m == [] then [(k, v)]
    else if m[0].0 == k then [(k, v)] + m[1..]
    else [m[0]] + Store(m[1..], k, v)
  }

  lemma {:induction false} StoreThenLookup(m: Entries, k: nat, v: JsValue, k': nat)
    ensures Lookup(Store(m, k, v), k') == if k' == k then v else Lookup(m, k')
  {
    if m != [] && m[0].0 != k {
      StoreThenLookup(m[1..], k, v, k');
      assert Store(m, k, v)[1..] == Store(m[1..], k, v);
    }
  }

  /** Storing the value already there changes nothing. */
  lemma {:induction false} StoreIdempotent(m: Entries, k: nat, v: JsValue)
    ensures Store(Store(m, k, v), k, v) == Store(m, k, v)
  {
    if m != [] && m[0].0 != k {
      StoreIdempotent(m[1..], k, v);
      assert Store(m, k, v) == [m[0]] + Store(m[1..], k, v);
    }
  }

  // ---------------------------------------------------------------------
  // Subscriptions
  // ---------------------------------------------------------------------

  /** The index of the first entry, in insertion order, whose input the
      output can see through `selector` (`allSources.find`). */
  function FirstMatch(m: Entries, dom: Dom, output: nat, selector: string): (r: Option<nat>)
    ensures r.Some? ==> r.value < |m| && MatchesScope(dom, output, m[r.value].0, selector)
    ensures r.Some? ==> forall j :: 0 <= j < r.value ==> !MatchesScope(dom, output, m[j].0, selector)
    ensures r.None? ==> forall j :: 0 <= j < |m| ==> !MatchesScope(dom, output, m[j].0, selector)
  {
    if m == [] then None
    else if MatchesScope(dom, output, m[0].0, selector) then Some(0)
    else match FirstMatch(m[1..], dom, output, selector)
      case None => None
      case Some(i) => Some(i + 1)
  }

  /** One `getInputValue` registration: the output it belongs to, its
      selector, the `value` its closure last delivered, and the controller
      whose signal it was registered with. */
  datatype Listener = Listener(owner: nat, selector: string, last: JsValue, signal: nat)

  /** `handleUpdate`: deliver `v` unless it is `===` to the last delivered
      value; a delivered value becomes the last one. */
  function Deliver(l: Listener, v: JsValue): (r: (Listener, bool))
    ensures r.1 <==> !StrictEquals(v, l.last)
    ensures r.0.owner == l.owner && r.0.selector == l.selector && r.0.signal == l.signal
    ensures r.0.last == if r.1 then v else l.last
  {
    if !StrictEquals(v, l.last) then (l.(last := v), true) else (l, false)
  }

  /** The registration and initial delivery of `getInputValue`: the new
      listener starts from `undefined` and gets the first visible entry, if
      any, through `handleUpdate`. */
  function Subscribe(m: Entries, dom: Dom, owner: nat, selector: string, signal: nat): (r: (Listener, Option<JsValue>))
    ensures r.0.owner == owner && r.0.selector == selector && r.0.signal == signal
    ensures FirstMatch(m, dom, owner, selector).None? ==> r.1 == None && r.0.last == Undefined
    ensures r.1.Some? ==> r.0.last == r.1.value
    ensures r.1.None? ==> r.0.last == Undefined
  {
    var l := Listener(owner, selector, Undefined, signal);
    match FirstMatch(m, dom, owner, selector)
    case None => (l, None)
    case Some(i) =>
      var (l', fired) := Deliver(l, m[i].1);
      (l', if fired then Some(m[i].1) else None)
  }

  /** The initial delivery is the value of the first visible input,
      unless that value is `undefined`. */
  lemma SubscribeDeliversFirstMatch(m: Entries, dom: Dom, owner: nat, selector: string, signal: nat)
    ensures var r := Subscribe(m, dom, owner, selector, signal);
      var f := FirstMatch(m, dom, owner, selector);
      r.1 == if f.Some? && m[f.value].1 != Undefined then Some(m[f.value].1) else None
  {
  }

  /** What `updateCallback` does for listener `l` on an update of `input`:
      a listener that is still registered and sees the input receives the
      map's current value through `handleUpdate`. */
  function Notify(l: Listener, live: bool, dom: Dom, m: Entries, input: nat): (r: (Listener, bool))
    ensures r.1 ==> live && MatchesScope(dom, l.owner, input, l.selector)
    ensures live && MatchesScope(dom, l.owner, input, l.selector) ==> r == Deliver(l, Lookup(m, input))
    ensures !r.1 ==> r.0 == l
  {
    if live && MatchesScope(dom, l.owner, input, l.selector) then Deliver(l, Lookup(m, input)) else (l, false)
  }

  /** `document.dispatchEvent`: every listener, in registration order, is
      notified of the update of `input`; `live[i]` says whether listener
      `i`'s signal is still unaborted. */
  function Broadcast(ls: seq<Listener>, live: seq<bool>, dom: Dom, m: Entries, input: nat): (r: (seq<Listener>, seq<bool>))
    requires |live| == |ls|
    ensures |r.0| == |ls| && |r.1| == |ls|
    ensures forall i :: 0 <= i < |ls| ==> (r.0[i], r.1[i]) == Notify(ls[i], live[i], dom, m, input)
  {
    if ls == [] then ([], [])
    else
      var (l, f) := Notify(ls[0], live[0], dom, m, input);
      var (rest, fs) := Broadcast(ls[1..], live[1..], dom, m, input);
      ([l] + rest, [f] + fs)
  }

  /** A second identical broadcast delivers nothing, unless the value is
      NaN, which `!==` lets through every time. */
  lemma RepeatedBroadcastIsQuiet(ls: seq<Listener>, live: seq<bool>, dom: Dom, m: Entries, input: nat)
    requires |live| == |ls|
    ensures var (ls1, _) := Broadcast(ls, live, dom, m, input);
      var (_, fired2) := Broadcast(ls1, live, dom, m, input);
      forall i :: 0 <= i < |ls| ==>
        (fired2[i] <==> Lookup(m, input) == NaN && live[i] && MatchesScope(dom, ls[i].owner, input, ls[i].selector))
  {
    var (ls1, fired1) := Broadcast(ls, live, dom, m, input);
    var (ls2, fired2) := Broadcast(ls1, live, dom, m, input);
    forall i | 0 <= i < |ls|
      ensures fired2[i] <==> Lookup(m, input) == NaN && live[i] && MatchesScope(dom, ls[i].owner, input, ls[i].selector)
    {
      assert (ls1[i], fired1[i]) == Notify(ls[i], live[i], dom, m, input);
      assert (ls2[i], fired2[i]) == Notify(ls1[i], live[i], dom, m, input);
      StrictEqualsIsEqualityButNaN(Lookup(m, input), ls1[i].last);
    }
  }

  /** A listener whose signal was aborted never hears anything again. */
  lemma AbortedListenerIsDeaf(ls: seq<Listener>, live: seq<bool>, dom: Dom, m: Entries, input: nat, i: nat)
    requires |live| == |ls| && i < |ls| && !live[i]
    ensures var (ls', fired) := Broadcast(ls, live, dom, m, input);
      !fired[i] && ls'[i] == ls[i]
  {
    var (ls', fired) := Broadcast(ls, live, dom, m, input);
    assert (ls'[i], fired[i]) == Notify(ls[i], live[i], dom, m, input);
  }
}

=== FILE: input_value.dfy ===
/**
  The `<input-value>` element of src/custom-inputs.js on top of the bus:
  its observed attributes `from`, `to` and `as`, the field `value`, the
  controllers it inherits from `AbortableMixin`, and the writes its
  `applyValue` makes into the page.

  A `Page` holds the bus (`inputMap` and every listener ever registered on
  the document) and the `<input-value>` elements by number. Each operation
  returns the next page together with the writes it made, in order.
 */
module InputValue {
  import opened Wrappers
  import opened Abortable
  import opened InputBus

  datatype Attr = From | To | As

  /** One write of `applyValue` into an output element; `SetText(o, None)`
      is `textContent = null`. */
  datatype Write =
    | SetText(output: nat, text: Option<JsValue>)
    | SetValue(output: nat, v: JsValue)
    | SetAttribute(output: nat, name: string, v: JsValue)
    | SetStyle(output: nat, property: string, v: JsValue)

  predicate StartsWith(s: string, prefix: string) {
    |prefix| <= |s| && s[..|prefix|] == prefix
  }

  // ---------------------------------------------------------------------
  // Write dispatch
  // ---------------------------------------------------------------------

  /** What `applyValue` writes into one output for the mode `as`;
      `hasValue` is `'value' in output`. */
  function WriteFor(output: nat, mode: string, hasValue: bool, v: JsValue): (r: Option<Write>)
    ensures r.Some? ==> r.value.output == output
    ensures r.None? <==> mode != "textContent" && (mode == [] || mode[0] != '@') && !StartsWith(mode, "--")
  {
    if mode == "textContent" then Some(SetText(output, if Truthy(v) then Some(v) else None))
    else if mode == "@value" && hasValue then Some(SetValue(output, v))
    else if |mode| > 0 && mode[0] == '@' then Some(SetAttribute(output, mode[1..], Or(v, Str(""))))
    else if StartsWith(mode, "--") then Some(SetStyle(output, mode, Or(v, Str(""))))
    else None
  }

  /** The dispatch table, mode by mode. A falsy value clears text and is
      written as `""` elsewhere, except through the `value` property, which
      receives it unchanged; `@value` on an output without that property
      falls back to the `value` attribute. */
  lemma WriteModes(o: nat, name: string, hasValue: bool, v: JsValue)
    ensures WriteFor(o, "textContent", hasValue, v) == Some(SetText(o, if Truthy(v) then Some(v) else None))
    ensures WriteFor(o, "@value", true, v) == Some(SetValue(o, v))
    ensures WriteFor(o, "@value", false, v) == Some(SetAttribute(o, "value", Or(v, Str(""))))
    ensures "@" + name != "@value" ==> WriteFor(o, "@" + name, hasValue, v) == Some(SetAttribute(o, name, Or(v, Str(""))))
    ensures WriteFor(o, "--" + name, hasValue, v) == Some(SetStyle(o, "--" + name, Or(v, Str(""))))
  {
    assert ("@" + name)[1..] == name;
    var style := "--" + name;
    assert style[0] == '-' && style[..2] == "--";
    assert style != "textContent" by {
      assert "textContent"[0] == 't';
    }
    assert WriteFor(o, style, hasValue, v) == Some(SetStyle(o, style, Or(v, Str(""))));
  }

  /** `getAttribute(name) || fallback`: an absent or empty attribute
      takes the fallback. */
  function AttrOr(a: Option<string>, fallback: string): (r: string)
    ensures a.Some? && a.value != "" ==> r == a.value
    ensures a.None? || a.value == "" ==> r == fallback
  {
    if a.Some? && a.value != "" then a.value else fallback
  }

  /** The writes into `outputs`, in document order: one per output when
      the mode writes at all, none otherwise. */
  function WritesInto(outputs: seq<nat>, mode: string, dom: Dom, v: JsValue): (ws: seq<Write>)
    ensures forall i :: 0 <= i < |ws| ==> ws[i].output in outputs
    ensures WriteFor(0, mode, false, v).None? ==> ws == []
    ensures WriteFor(0, mode, false, v).Some? ==>
      && |ws| == |outputs|
      && forall i :: 0 <= i < |ws| ==> Some(ws[i]) == WriteFor(outputs[i], mode, dom.hasValue(outputs[i]), v)
  {
    if outputs == [] then []
    else
      var rest := WritesInto(outputs[1..], mode, dom, v);
      match WriteFor(outputs[0], mode, dom.hasValue(outputs[0]), v)
      case Some(w) => [w] + rest
      case None => rest
  }

  // ---------------------------------------------------------------------
  // The element and the page
  // ---------------------------------------------------------------------

  /** One `<input-value>`: its observed attributes (`None` when absent),
      its `value` field and its controllers. */
  datatype Element = Element(from: Option<string>, to: Option<string>, asMode: Option<string>,
                             value: JsValue, controllers: Controllers)

  datatype Page = Page(entries: Entries, listeners: seq<Listener>, elements: map<nat, Element>)

  /** The next page and the writes that led to it. */
  datatype Step = Step(page: Page, writes: seq<Write>)

  /** `applyValue`: `to` defaults to `output` and `as` to `textContent`;
      `to="self"` writes into the element itself. */
  function ApplyValue(el: Element, self: nat, dom: Dom): (ws: seq<Write>)
    ensures var outputs := if AttrOr(el.to, "output") == "self" then [self] else dom.query(self, AttrOr(el.to, "output"));
      var mode := AttrOr(el.asMode, "textContent");
      && (WriteFor(0, mode, false, el.value).None? ==> ws == [])
      && (WriteFor(0, mode, false, el.value).Some? ==>
            && |ws| == |outputs|
            && forall i :: 0 <= i < |ws| ==> Some(ws[i]) == WriteFor(outputs[i], mode, dom.hasValue(outputs[i]), el.value))
    ensures AttrOr(el.to, "output") == "self" ==> forall i :: 0 <= i < |ws| ==> ws[i].output == self
    ensures AttrOr(el.to, "output") == "self" && AttrOr(el.asMode, "textContent") == "textContent" ==>
              ws == [SetText(self, if Truthy(el.value) then Some(el.value) else None)]
  {
    var to := AttrOr(el.to, "output");
    var mode := AttrOr(el.asMode, "textContent");
    var outputs := if to == "self" then [self] else dom.query(self, to);
    WritesInto(outputs, mode, dom, el.value)
  }

  /** Every listener belongs to a known element. */
  predicate OwnersKnown(p: Page) {
    forall i :: 0 <= i < |p.listeners| ==> p.listeners[i].owner in p.elements
  }

  /** A listener is still registered while its controller is unaborted. */
  predicate Live(p: Page, l: Listener) {
    l.owner in p.elements && !IsAborted(p.elements[l.owner].controllers, l.signal)
  }

  function AttrOf(el: Element, name: Attr): Option<string> {
    match name
    case From => el.from
    case To => el.to
    case As => el.asMode
  }

  function WithAttr(el: Element, name: Attr, v: Option<string>): (r: Element)
    ensures AttrOf(r, name) == v
    ensures forall a :: a != name ==> AttrOf(r, a) == AttrOf(el, a)
    ensures r.value == el.value && r.controllers == el.controllers
  {
    match name
    case From => el.(from := v)
    case To => el.(to := v)
    case As => el.(asMode := v)
  }

  // ---------------------------------------------------------------------
  // Callbacks
  // ---------------------------------------------------------------------

  /** `attributeChangedCallback(name, oldValue, newValue)`. A change of
      `to` or `as` only re-renders. A change of `from` aborts the old
      subscription, installs a fresh controller and subscribes with
      `newValue` as the selector (`null` reaching `matches` as the string
      `"null"`); an initial delivery sets `value` and renders. */
  function Callback(p: Page, dom: Dom, self: nat, name: Attr, oldValue: Option<string>, newValue: Option<string>): (r: Step)
    requires self in p.elements
    ensures oldValue == newValue ==> r == Step(p, [])
    ensures oldValue != newValue && name != From ==> r == Step(p, ApplyValue(p.elements[self], self, dom))
    ensures r.page.entries == p.entries && r.page.elements.Keys == p.elements.Keys
    ensures oldValue != newValue && name == From ==>
      && |r.page.listeners| == |p.listeners| + 1
      && r.page.listeners[..|p.listeners|] == p.listeners
      && r.page.listeners[|p.listeners|] ==
           Subscribe(p.entries, dom, self, newValue.GetOr("null"), |p.elements[self].controllers|).0
      && r.page.elements[self].controllers == Cleanup(p.elements[self].controllers)
    ensures oldValue != newValue && name == From ==>
      var s := Subscribe(p.entries, dom, self, newValue.GetOr("null"), |p.elements[self].controllers|);
      && r.page.elements[self].value == (if s.1.Some? then s.1.value else p.elements[self].value)
      && r.writes == (if s.1.Some? then ApplyValue(r.page.elements[self], self, dom) else [])
    ensures var e, e' := p.elements[self], r.page.elements[self];
      e'.from == e.from && e'.to == e.to && e'.asMode == e.asMode
    ensures forall o :: o in p.elements && o != self ==> r.page.elements[o] == p.elements[o]
    ensures OwnersKnown(p) ==> OwnersKnown(r.page)
  {
    var el := p.elements[self];
    if oldValue == newValue then Step(p, [])
    else if name != From then Step(p, ApplyValue(el, self, dom))
    else
      var cs := Cleanup(el.controllers);
      var (l, init) := Subscribe(p.entries, dom, self, newValue.GetOr("null"), Current(cs));
      var el' := el.(controllers := cs, value := init.GetOr(el.value));
      Step(p.(listeners := p.listeners + [l], elements := p.elements[self := el']),
           if init.Some? then ApplyValue(el', self, dom) else [])
  }

  /** Setting (or, with `None`, removing) an observed attribute: the
      attribute changes, then the callback runs with the old and new value. */
  function SetAttr(p: Page, dom: Dom, self: nat, name: Attr, newValue: Option<string>): (r: Step)
    requires self in p.elements
    ensures r.page.elements.Keys == p.elements.Keys
    ensures AttrOf(r.page.elements[self], name) == newValue
    ensures AttrOf(p.elements[self], name) == newValue ==> r.page == p && r.writes == []
    ensures OwnersKnown(p) ==> OwnersKnown(r.page)
  {
    var el := p.elements[self];
    var p' := p.(elements := p.elements[self := WithAttr(el, name, newValue)]);
    assert WithAttr(el, name, newValue) == el <== AttrOf(el, name) == newValue;
    Callback(p', dom, self, name, AttrOf(el, name), newValue)
  }

  /** `connectedCallback` as written: it subscribes with `*` only when
      there is no `from` attribute. */
  function Connected(p: Page, dom: Dom, self: nat): (r: Step)
    requires self in p.elements
    ensures p.elements[self].from.Some? ==> r == Step(p, [])
    ensures p.elements[self].from.None? ==> r == Callback(p, dom, self, From, None, Some("*"))
  {
    if p.elements[self].from.None? then Callback(p, dom, self, From, None, Some("*")) else Step(p, [])
  }

  /** `connectedCallback` subscribing on every connection, with the
      `from` attribute or `*`; the `cleanup` inside the callback keeps a
      reconnection from doubling the subscription. */
  function ConnectedFixed(p: Page, dom: Dom, self: nat): (r: Step)
    requires self in p.elements
    ensures r == Callback(p, dom, self, From, None, Some(p.elements[self].from.GetOr("*")))
  {
    Callback(p, dom, self, From, None, Some(p.elements[self].from.GetOr("*")))
  }

  /** `disconnectedCallback`: the current controller is aborted. */
  function Disconnected(p: Page, self: nat): (r: Page)
    requires self in p.elements
    ensures r.entries == p.entries && r.listeners == p.listeners && r.elements.Keys == p.elements.Keys
    ensures r.elements[self].controllers == Disconnect(p.elements[self].controllers)
    ensures forall o :: o in p.elements && o != self ==> r.elements[o] == p.elements[o]
  {
    var el := p.elements[self];
    p.(elements := p.elements[self := el.(controllers := Disconnect(el.controllers))])
  }

  /** A new `<input-value>` with no attributes, `value` undefined and one
      unaborted controller; a number already in use names the same element
      and changes nothing. */
  function Created(p: Page, self: nat): (r: Page)
    ensures self in r.elements && r.entries == p.entries && r.listeners == p.listeners
    ensures self !in p.elements ==> r.elements[self] == Element(None, None, None, Undefined, Fresh())
    ensures self in p.elements ==> r == p
  {
    if self in p.elements then p else p.(elements := p.elements[self := Element(None, None, None, Undefined, Fresh())])
  }

  // ---------------------------------------------------------------------
  // Updates of an input source
  // ---------------------------------------------------------------------

  /** The elements after the handlers of the listeners that fired have
      run, in registration order: each sets its element's `value`. */
  function Handled(ls: seq<Listener>, fired: seq<bool>, els: map<nat, Element>): (r: map<nat, Element>)
    requires |fired| == |ls|
    requires forall i :: 0 <= i < |ls| ==> ls[i].owner in els
    ensures r.Keys == els.Keys
    ensures forall o :: o in els ==> r[o] == els[o].(value := r[o].value)
    ensures forall o :: o in els && (forall i :: 0 <= i < |ls| && fired[i] ==> ls[i].owner != o) ==> r[o] == els[o]
  {
    if ls == [] then els
    else if fired[0] then
      var o := ls[0].owner;
      Handled(ls[1..], fired[1..], els[o := els[o].(value := ls[0].last)])
    else Handled(ls[1..], fired[1..], els)
  }

  /** The writes those handlers make, each rendering its element with the
      value just set. */
  function HandlerWrites(ls: seq<Listener>, fired: seq<bool>, els: map<nat, Element>, dom: Dom): (ws: seq<Write>)
    requires |fired| == |ls|
    requires forall i :: 0 <= i < |ls| ==> ls[i].owner in els
    ensures (forall i :: 0 <= i < |ls| ==> !fired[i]) ==> ws == []
  {
    if ls == [] then []
    else if fired[0] then
      var o := ls[0].owner;
      var el := els[o].(value := ls[0].last);
      ApplyValue(el, o, dom) + HandlerWrites(ls[1..], fired[1..], els[o := el], dom)
    else HandlerWrites(ls[1..], fired[1..], els, dom)
  }

  /** `updateInputSource` for an input whose `max` and `value` properties
      are given (with what `Number()` makes of them): the clamped value is
      stored, then one update is broadcast to every listener. */
  function InputUpdate(p: Page, dom: Dom, input: nat, max: string, value: string,
                       maxNumber: Option<int>, valueNumber: Option<int>): (r: Step)
    requires OwnersKnown(p)
    ensures r.page.entries == Store(p.entries, input, SourceValue(max, value, maxNumber, valueNumber))
    ensures |r.page.listeners| == |p.listeners| && r.page.elements.Keys == p.elements.Keys
    ensures forall o :: o in p.elements ==> r.page.elements[o].controllers == p.elements[o].controllers
    ensures forall i :: 0 <= i < |p.listeners| ==>
      r.page.listeners[i] == Notify(p.listeners[i], Live(p, p.listeners[i]), dom, r.page.entries, input).0
    ensures forall o :: o in p.elements && (forall i :: 0 <= i < |p.listeners| && p.listeners[i].owner == o ==> !Live(p, p.listeners[i]))
              ==> r.page.elements[o] == p.elements[o]
    ensures OwnersKnown(r.page)
  {
    var m := Store(p.entries, input, SourceValue(max, value, maxNumber, valueNumber));
    var b := Broadcast(p.listeners, LiveFlags(p), dom, m, input);
    Step(Page(m, b.0, Handled(b.0, b.1, p.elements)), HandlerWrites(b.0, b.1, p.elements, dom))
  }

  /** Which listeners are still registered. */
  function LiveFlags(p: Page): (live: seq<bool>)
    ensures |live| == |p.listeners|
    ensures forall i :: 0 <= i < |p.listeners| ==> live[i] == Live(p, p.listeners[i])
  {
    seq(|p.listeners|, i requires 0 <= i < |p.listeners| => Live(p, p.listeners[i]))
  }

  // ---------------------------------------------------------------------
  // Runs
  // ---------------------------------------------------------------------

  /** What can happen to a page. An event naming an element that does not
      exist does nothing. */
  datatype Event =
    | NewElement(self: nat)
    | AttributeSet(self: nat, name: Attr, value: Option<string>)
    | Connection(self: nat)
    | Disconnection(self: nat)
    | SourceInput(input: nat, max: string, text: string, maxNumber: Option<int>, textNumber: Option<int>)

  /** How a connection behaves: `AsWritten` is `Connected`, the
      `connectedCallback` of the source; `Resubscribing` is `ConnectedFixed`. */
  datatype Connect = AsWritten | Resubscribing

  /** The connection of `self` under the chosen behaviour. */
  function OnConnect(p: Page, dom: Dom, connect: Connect, self: nat): (r: Step)
    requires self in p.elements
    ensures connect == AsWritten ==> r == Connected(p, dom, self)
    ensures connect == Resubscribing ==> r == ConnectedFixed(p, dom, self)
  {
    match connect
    case AsWritten => Connected(p, dom, self)
    case Resubscribing => ConnectedFixed(p, dom, self)
  }

  /** One event. */
  function Handle(p: Page, dom: Dom, connect: Connect, e: Event): (r: Step)
    requires OwnersKnown(p)
    ensures OwnersKnown(r.page)
    ensures p.elements.Keys <= r.page.elements.Keys
  {
    match e
    case NewElement(self) => Step(Created(p, self), [])
    case AttributeSet(self, name, value) =>
      if self in p.elements then SetAttr(p, dom, self, name, value) else Step(p, [])
    case Connection(self) => if self in p.elements then OnConnect(p, dom, connect, self) else Step(p, [])
    case Disconnection(self) => if self in p.elements then Step(Disconnected(p, self), []) else Step(p, [])
    case SourceInput(input, max, text, maxNumber, textNumber) => InputUpdate(p, dom, input, max, text, maxNumber, textNumber)
  }

  /** Events one after the other, with their writes in order. */
  function Run(p: Page, dom: Dom, connect: Connect, es: seq<Event>): (r: Step)
    requires OwnersKnown(p)
    ensures OwnersKnown(r.page)
    ensures p.elements.Keys <= r.page.elements.Keys
    ensures es == [] ==> r == Step(p, [])
    decreases es
  {
    if es == [] then Step(p, [])
    else
      var s := Handle(p, dom, connect, es[0]);
      var t := Run(s.page, dom, connect, es[1..]);
      Step(t.page, s.writes + t.writes)
  }
}

=== FILE: input_value_proofs.dfy ===
/**
  Facts about the pages `InputValue` reaches: every element has at most
  one live subscription, and the reconnection of an element that has a
  `from` attribute.
 */
module InputValueProofs {
  import opened Wrappers
  import opened Abortable
  import opened InputBus
  import opened InputValue

  /** The shape every reachable page keeps: every listener's controller
      exists, every controller but an element's current one is aborted, and
      an element's listeners were registered with strictly newer
      controllers over time. */
  ghost predicate WellFormed(p: Page) {
    && OwnersKnown(p)
    && (forall i :: 0 <= i < |p.listeners| ==>
          p.listeners[i].signal < |p.elements[p.listeners[i].owner].controllers|)
    && (forall o :: o in p.elements ==> Superseded(p.elements[o].controllers))
    && (forall i, j :: 0 <= i < j < |p.listeners| && p.listeners[i].owner == p.listeners[j].owner ==>
          p.listeners[i].signal < p.listeners[j].signal)
  }

  /** The page before any element exists. */
  function EmptyPage(): (p: Page)
    ensures WellFormed(p) && p.listeners == [] && p.elements == map[]
  {
    Page([], [], map[])
  }

  /** A live listener was registered with its element's current controller. */
  lemma LiveIsCurrent(p: Page, i: nat)
    requires WellFormed(p) && i < |p.listeners| && Live(p, p.listeners[i])
    ensures p.listeners[i].signal == Current(p.elements[p.listeners[i].owner].controllers)
  {
  }

  /** At most one subscription of an element is live. */
  lemma AtMostOneLive(p: Page, i: nat, j: nat)
    requires WellFormed(p) && i < |p.listeners| && j < |p.listeners|
    requires p.listeners[i].owner == p.listeners[j].owner
    requires Live(p, p.listeners[i]) && Live(p, p.listeners[j])
    ensures i == j
  {
    LiveIsCurrent(p, i);
    LiveIsCurrent(p, j);
  }

  // ---------------------------------------------------------------------
  // Every operation keeps the page well formed
  // ---------------------------------------------------------------------

  lemma CreatedKeepsWellFormed(p: Page, self: nat)
    requires WellFormed(p)
    ensures WellFormed(Created(p, self))
  {
    var r := Created(p, self);
    if self !in p.elements {
      forall o | o in r.elements
        ensures Superseded(r.elements[o].controllers)
      {
        if o == self {
          assert r.elements[o].controllers == Fresh();
        }
      }
    }
  }

  lemma DisconnectedKeepsWellFormed(p: Page, self: nat)
    requires WellFormed(p) && self in p.elements
    ensures WellFormed(Disconnected(p, self))
  {
    var r := Disconnected(p, self);
    DisconnectLeavesNothingLive(p.elements[self].controllers);
    forall i | 0 <= i < |r.listeners|
      ensures r.listeners[i].signal < |r.elements[r.listeners[i].owner].controllers|
    {
      assert r.listeners[i] == p.listeners[i];
    }
  }

  /** A new subscription is registered with the fresh controller, which is
      newer than every controller an earlier listener of the element used. */
  lemma CallbackKeepsWellFormed(p: Page, dom: Dom, self: nat, name: Attr, oldValue: Option<string>, newValue: Option<string>)
    requires WellFormed(p) && self in p.elements
    ensures WellFormed(Callback(p, dom, self, name, oldValue, newValue).page)
  {
    if oldValue != newValue && name == From {
      var r := Callback(p, dom, self, name, oldValue, newValue).page;
      var n := |p.listeners|;
      var c := p.elements[self].controllers;
      CleanupLeavesOnlyCurrentLive(c);
      assert r.listeners[n].owner == self && r.listeners[n].signal == |c|;
      forall i | 0 <= i < |r.listeners|
        ensures r.listeners[i].signal < |r.elements[r.listeners[i].owner].controllers|
      {
        if i < n {
          assert r.listeners[i] == r.listeners[..n][i] == p.listeners[i];
        }
      }
      forall o | o in r.elements
        ensures Superseded(r.elements[o].controllers)
      {
      }
      forall i, j | 0 <= i < j < |r.listeners| && r.listeners[i].owner == r.listeners[j].owner
        ensures r.listeners[i].signal < r.listeners[j].signal
      {
        assert r.listeners[i] == r.listeners[..n][i] == p.listeners[i];
        if j < n {
          assert r.listeners[j] == r.listeners[..n][j] == p.listeners[j];
        }
      }
    }
  }

  lemma SetAttrKeepsWellFormed(p: Page, dom: Dom, self: nat, name: Attr, newValue: Option<string>)
    requires WellFormed(p) && self in p.elements
    ensures WellFormed(SetAttr(p, dom, self, name, newValue).page)
  {
    var el := p.elements[self];
    var p' := p.(elements := p.elements[self := WithAttr(el, name, newValue)]);
    assert WellFormed(p') by {
      forall i | 0 <= i < |p'.listeners|
        ensures p'.listeners[i].signal < |p'.elements[p'.listeners[i].owner].controllers|
      {
        assert p'.listeners[i] == p.listeners[i];
      }
    }
    CallbackKeepsWellFormed(p', dom, self, name, AttrOf(el, name), newValue);
  }

  lemma InputUpdateKeepsWellFormed(p: Page, dom: Dom, input: nat, max: string, value: string,
                                   maxNumber: Option<int>, valueNumber: Option<int>)
    requires WellFormed(p)
    ensures WellFormed(InputUpdate(p, dom, input, max, value, maxNumber, valueNumber).page)
  {
    var r := InputUpdate(p, dom, input, max, value, maxNumber, valueNumber).page;
    forall i | 0 <= i < |r.listeners|
      ensures r.listeners[i].owner == p.listeners[i].owner && r.listeners[i].signal == p.listeners[i].signal
    {
      var n := Notify(p.listeners[i], Live(p, p.listeners[i]), dom, r.entries, input);
      assert r.listeners[i] == n.0;
    }
  }

  /** Any event keeps the page well formed. */
  lemma HandleKeepsWellFormed(p: Page, dom: Dom, connect: Connect, e: Event)
    requires WellFormed(p)
    ensures WellFormed(Handle(p, dom, connect, e).page)
  {
    match e
    case NewElement(self) => CreatedKeepsWellFormed(p, self);
    case AttributeSet(self, name, value) =>
      if self in p.elements {
        SetAttrKeepsWellFormed(p, dom, self, name, value);
      }
    case Connection(self) =>
      if self in p.elements {
        assert Handle(p, dom, connect, e) == OnConnect(p, dom, connect, self);
        ConnectKeepsWellFormed(p, dom, connect, self);
      }
    case Disconnection(self) =>
      if self in p.elements {
        DisconnectedKeepsWellFormed(p, self);
      }
    case SourceInput(input, max, text, maxNumber, textNumber) =>
      assert Handle(p, dom, connect, e) == InputUpdate(p, dom, input, max, text, maxNumber, textNumber);
      InputUpdateKeepsWellFormed(p, dom, input, max, text, maxNumber, textNumber);
  }

  /** A connection, as written or resubscribing, keeps the page well formed. */
  lemma ConnectKeepsWellFormed(p: Page, dom: Dom, connect: Connect, self: nat)
    requires WellFormed(p) && self in p.elements
    ensures WellFormed(OnConnect(p, dom, connect, self).page)
  {
    if connect == Resubscribing {
      CallbackKeepsWellFormed(p, dom, self, From, None, Some(p.elements[self].from.GetOr("*")));
    } else if p.elements[self].from.None? {
      CallbackKeepsWellFormed(p, dom, self, From, None, Some("*"));
    }
  }

  /** Any run keeps the page well formed, with connections as written or
      resubscribing. */
  lemma {:induction false} RunKeepsWellFormed(p: Page, dom: Dom, connect: Connect, es: seq<Event>)
    requires WellFormed(p)
    ensures WellFormed(Run(p, dom, connect, es).page)
    decreases es
  {
    if es != [] {
      HandleKeepsWellFormed(p, dom, connect, es[0]);
      RunKeepsWellFormed(Handle(p, dom, connect, es[0]).page, dom, connect, es[1..]);
    }
  }

  /** From the empty page, whatever happens, no element ever holds two
      live subscriptions, with connections as written or resubscribing. */
  lemma RunHasAtMostOneLive(dom: Dom, connect: Connect, es: seq<Event>, i: nat, j: nat)
    requires var r := Run(EmptyPage(), dom, connect, es).page;
      && i < |r.listeners| && j < |r.listeners|
      && r.listeners[i].owner == r.listeners[j].owner
      && Live(r, r.listeners[i]) && Live(r, r.listeners[j])
    ensures i == j
  {
    RunKeepsWellFormed(EmptyPage(), dom, connect, es);
    AtMostOneLive(Run(EmptyPage(), dom, connect, es).page, i, j);
  }

  // ---------------------------------------------------------------------
  // Subscribing
  // ---------------------------------------------------------------------

  /** After a `from` change the element's live subscription is exactly the
      new one, with the new selector. */
  lemma FromChangeSubscribesOnce(p: Page, dom: Dom, self: nat, oldValue: Option<string>, newValue: Option<string>)
    requires WellFormed(p) && self in p.elements && oldValue != newValue
    ensures var r := Callback(p, dom, self, From, oldValue, newValue).page;
      && r.listeners[|r.listeners| - 1].owner == self
      && r.listeners[|r.listeners| - 1].selector == newValue.GetOr("null")
      && forall i :: 0 <= i < |r.listeners| && r.listeners[i].owner == self ==>
           (Live(r, r.listeners[i]) <==> i == |r.listeners| - 1)
  {
    var r := Callback(p, dom, self, From, oldValue, newValue).page;
    var n := |p.listeners|;
    var c := p.elements[self].controllers;
    CleanupLeavesOnlyCurrentLive(c);
    forall i | 0 <= i < |r.listeners| && r.listeners[i].owner == self
      ensures Live(r, r.listeners[i]) <==> i == |r.listeners| - 1
    {
      if i < n {
        assert r.listeners[i] == r.listeners[..n][i] == p.listeners[i];
      }
    }
  }

  /** A change of `to` or `as` re-renders the stored value and leaves the
      subscriptions and the controllers alone. */
  lemma RenderChangeKeepsSubscription(p: Page, dom: Dom, self: nat, name: Attr, newValue: Option<string>)
    requires self in p.elements && name != From && AttrOf(p.elements[self], name) != newValue
    ensures var r := SetAttr(p, dom, self, name, newValue);
      && r.page.listeners == p.listeners
      && r.page.elements[self].controllers == p.elements[self].controllers
      && r.page.elements[self].value == p.elements[self].value
      && r.writes == ApplyValue(WithAttr(p.elements[self], name, newValue), self, dom)
  {
  }

  // ---------------------------------------------------------------------
  // Updates
  // ---------------------------------------------------------------------

  /** No listener but `i` of `ls` that fired belongs to `o`. */
  predicate OnlyFiredOf(ls: seq<Listener>, fired: seq<bool>, i: int, o: nat)
    requires |fired| == |ls|
  {
    forall j :: 0 <= j < |ls| && j != i && fired[j] ==> ls[j].owner != o
  }

  lemma OnlyFiredOfTail(ls: seq<Listener>, fired: seq<bool>, i: int, o: nat)
    requires |fired| == |ls| && ls != [] && OnlyFiredOf(ls, fired, i, o)
    ensures OnlyFiredOf(ls[1..], fired[1..], i - 1, o)
  {
    forall j | 0 <= j < |ls[1..]| && j != i - 1 && fired[1..][j]
      ensures ls[1..][j].owner != o
    {
      assert ls[1..][j] == ls[j + 1] && fired[1..][j] == fired[j + 1];
    }
  }

  /** The handler of a listener that fired sets its element's `value`,
      provided no other listener of that element fired. */
  lemma {:induction false} HandlerSetsValue(ls: seq<Listener>, fired: seq<bool>, els: map<nat, Element>, i: nat)
    requires |fired| == |ls| && (forall k :: 0 <= k < |ls| ==> ls[k].owner in els)
    requires i < |ls| && fired[i] && OnlyFiredOf(ls, fired, i, ls[i].owner)
    ensures Handled(ls, fired, els)[ls[i].owner].value == ls[i].last
  {
    OnlyFiredOfTail(ls, fired, i, ls[i].owner);
    var els' := if fired[0] then els[ls[0].owner := els[ls[0].owner].(value := ls[0].last)] else els;
    assert Handled(ls, fired, els) == Handled(ls[1..], fired[1..], els');
    if i > 0 {
      assert ls[1..][i - 1] == ls[i];
      HandlerSetsValue(ls[1..], fired[1..], els', i - 1);
    }
  }

  /** The listeners that fired in a broadcast on a well-formed page are
      live ones, so at most one per element. */
  lemma FiredAreUnique(p: Page, dom: Dom, m: Entries, input: nat, i: nat)
    requires WellFormed(p) && i < |p.listeners| && Live(p, p.listeners[i])
    requires MatchesScope(dom, p.listeners[i].owner, input, p.listeners[i].selector)
    requires !StrictEquals(Lookup(m, input), p.listeners[i].last)
    ensures var b := Broadcast(p.listeners, LiveFlags(p), dom, m, input);
      && (forall k :: 0 <= k < |b.0| ==> b.0[k].owner in p.elements)
      && b.1[i] && b.0[i].owner == p.listeners[i].owner && b.0[i].last == Lookup(m, input)
      && OnlyFiredOf(b.0, b.1, i, p.listeners[i].owner)
  {
    var live := LiveFlags(p);
    var b := Broadcast(p.listeners, live, dom, m, input);
    forall k | 0 <= k < |b.0|
      ensures b.0[k].owner == p.listeners[k].owner
      ensures b.1[k] ==> Live(p, p.listeners[k])
    {
      assert (b.0[k], b.1[k]) == Notify(p.listeners[k], live[k], dom, m, input);
    }
    forall j | 0 <= j < |b.0| && j != i && b.1[j]
      ensures b.0[j].owner != p.listeners[i].owner
    {
      if b.0[j].owner == p.listeners[i].owner {
        AtMostOneLive(p, i, j);
      }
    }
  }

  /** The broadcast half of an update, for listener `i`. */
  lemma UpdateNotifies(p: Page, dom: Dom, input: nat, max: string, value: string,
                       maxNumber: Option<int>, valueNumber: Option<int>, i: nat)
    requires OwnersKnown(p) && i < |p.listeners| && Live(p, p.listeners[i])
    requires MatchesScope(dom, p.listeners[i].owner, input, p.listeners[i].selector)
    ensures var v := SourceValue(max, value, maxNumber, valueNumber);
      var ls := InputUpdate(p, dom, input, max, value, maxNumber, valueNumber).page.listeners;
      ls[i] == Deliver(p.listeners[i], v).0
  {
    var v := SourceValue(max, value, maxNumber, valueNumber);
    StoreThenLookup(p.entries, input, v, input);
  }

  /** The handler half of an update: the element of a live listener that
      fired holds the new value. */
  lemma UpdateSetsValue(p: Page, dom: Dom, input: nat, max: string, value: string,
                        maxNumber: Option<int>, valueNumber: Option<int>, i: nat)
    requires WellFormed(p) && i < |p.listeners| && Live(p, p.listeners[i])
    requires MatchesScope(dom, p.listeners[i].owner, input, p.listeners[i].selector)
    requires !StrictEquals(SourceValue(max, value, maxNumber, valueNumber), p.listeners[i].last)
    ensures InputUpdate(p, dom, input, max, value, maxNumber, valueNumber).page.elements[p.listeners[i].owner].value
              == SourceValue(max, value, maxNumber, valueNumber)
  {
    var v := SourceValue(max, value, maxNumber, valueNumber);
    var m := Store(p.entries, input, v);
    StoreThenLookup(p.entries, input, v, input);
    var b := Broadcast(p.listeners, LiveFlags(p), dom, m, input);
    FiredAreUnique(p, dom, m, input, i);
    HandlerSetsValue(b.0, b.1, p.elements, i);
  }

  /** An update reaches every live listener that sees the input: when the
      stored value is not `===` to the last one it delivered, the listener
      and its element take the new value; otherwise nothing is delivered. */
  lemma UpdateReachesLiveListener(p: Page, dom: Dom, input: nat, max: string, value: string,
                                  maxNumber: Option<int>, valueNumber: Option<int>, i: nat)
    requires WellFormed(p) && i < |p.listeners| && Live(p, p.listeners[i])
    requires MatchesScope(dom, p.listeners[i].owner, input, p.listeners[i].selector)
    ensures var v := SourceValue(max, value, maxNumber, valueNumber);
      var r := InputUpdate(p, dom, input, max, value, maxNumber, valueNumber).page;
      && (!StrictEquals(v, p.listeners[i].last) ==>
            r.listeners[i].last == v && r.elements[p.listeners[i].owner].value == v)
      && (StrictEquals(v, p.listeners[i].last) ==>
            r.listeners[i] == p.listeners[i] && r.elements[p.listeners[i].owner] == p.elements[p.listeners[i].owner])
  {
    UpdateNotifies(p, dom, input, max, value, maxNumber, valueNumber, i);
    if !StrictEquals(SourceValue(max, value, maxNumber, valueNumber), p.listeners[i].last) {
      UpdateSetsValue(p, dom, input, max, value, maxNumber, valueNumber, i);
    } else {
      SuppressedLeavesElement(p, dom, input, max, value, maxNumber, valueNumber, i);
    }
  }

  /** A suppressed delivery runs no handler: when the input is outside the
      listener's scope, or the value is `===` to the last one it delivered,
      neither the listener nor its element changes. */
  lemma SuppressedLeavesElement(p: Page, dom: Dom, input: nat, max: string, value: string,
                                maxNumber: Option<int>, valueNumber: Option<int>, i: nat)
    requires WellFormed(p) && i < |p.listeners| && Live(p, p.listeners[i])
    requires !MatchesScope(dom, p.listeners[i].owner, input, p.listeners[i].selector)
             || StrictEquals(SourceValue(max, value, maxNumber, valueNumber), p.listeners[i].last)
    ensures var r := InputUpdate(p, dom, input, max, value, maxNumber, valueNumber).page;
      && r.listeners[i] == p.listeners[i]
      && r.elements[p.listeners[i].owner] == p.elements[p.listeners[i].owner]
  {
    var v := SourceValue(max, value, maxNumber, valueNumber);
    var m := Store(p.entries, input, v);
    StoreThenLookup(p.entries, input, v, input);
    var b := Broadcast(p.listeners, LiveFlags(p), dom, m, input);
    var o := p.listeners[i].owner;
    forall k | 0 <= k < |b.0| && b.1[k]
      ensures b.0[k].owner != o
    {
      assert (b.0[k], b.1[k]) == Notify(p.listeners[k], Live(p, p.listeners[k]), dom, m, input);
      if p.listeners[k].owner == o {
        AtMostOneLive(p, i, k);
      }
    }
    assert InputUpdate(p, dom, input, max, value, maxNumber, valueNumber).page.elements
             == Handled(b.0, b.1, p.elements);
  }

  /** An input event that every live listener in scope has already seen is
      quiet: no handler runs, so nothing is written and no listener or
      element changes; only the map records the value. */
  lemma QuietUpdate(p: Page, dom: Dom, input: nat, max: string, value: string,
                    maxNumber: Option<int>, valueNumber: Option<int>)
    requires OwnersKnown(p)
    requires forall j :: 0 <= j < |p.listeners| && Live(p, p.listeners[j])
                           && MatchesScope(dom, p.listeners[j].owner, input, p.listeners[j].selector)
                         ==> StrictEquals(SourceValue(max, value, maxNumber, valueNumber), p.listeners[j].last)
    ensures var r := InputUpdate(p, dom, input, max, value, maxNumber, valueNumber);
      && r.writes == []
      && r.page.listeners == p.listeners
      && r.page.elements == p.elements
  {
    var v := SourceValue(max, value, maxNumber, valueNumber);
    var m := Store(p.entries, input, v);
    StoreThenLookup(p.entries, input, v, input);
    QuietDispatch(p.listeners, LiveFlags(p), dom, m, input, p.elements);
  }

  /** `QuietUpdate` over any map: nothing fires, changes or is written. */
  lemma QuietDispatch(ls: seq<Listener>, live: seq<bool>, dom: Dom, m: Entries, input: nat,
                      els: map<nat, Element>)
    requires |live| == |ls| && forall k :: 0 <= k < |ls| ==> ls[k].owner in els
    requires forall j :: 0 <= j < |ls| && live[j] && MatchesScope(dom, ls[j].owner, input, ls[j].selector)
                         ==> StrictEquals(Lookup(m, input), ls[j].last)
    ensures var b := Broadcast(ls, live, dom, m, input);
      && b.0 == ls
      && Handled(b.0, b.1, els) == els
      && HandlerWrites(b.0, b.1, els, dom) == []
  {
    var b := Broadcast(ls, live, dom, m, input);
    QuietBroadcast(ls, live, dom, m, input);
    NoHandlerRuns(b.0, b.1, els, dom);
  }

  /** The broadcast side of `QuietUpdate`: no listener fires or changes. */
  lemma QuietBroadcast(ls: seq<Listener>, live: seq<bool>, dom: Dom, m: Entries, input: nat)
    requires |live| == |ls|
    requires forall j :: 0 <= j < |ls| && live[j] && MatchesScope(dom, ls[j].owner, input, ls[j].selector)
                         ==> StrictEquals(Lookup(m, input), ls[j].last)
    ensures var b := Broadcast(ls, live, dom, m, input);
      b.0 == ls && forall k :: 0 <= k < |ls| ==> !b.1[k]
  {
    var b := Broadcast(ls, live, dom, m, input);
    forall k | 0 <= k < |ls|
      ensures !b.1[k] && b.0[k] == ls[k]
    {
      assert (b.0[k], b.1[k]) == Notify(ls[k], live[k], dom, m, input);
    }
  }

  /** The handler side of `QuietUpdate`: with nothing fired, no element
      changes and nothing is written. */
  lemma NoHandlerRuns(ls: seq<Listener>, fired: seq<bool>, els: map<nat, Element>, dom: Dom)
    requires |fired| == |ls| && forall k :: 0 <= k < |ls| ==> ls[k].owner in els
    requires forall k :: 0 <= k < |ls| ==> !fired[k]
    ensures Handled(ls, fired, els) == els && HandlerWrites(ls, fired, els, dom) == []
  {
    var hd := Handled(ls, fired, els);
    forall o | o in els
      ensures hd[o] == els[o]
    {
    }
  }

  /** When exactly one listener fired, the handlers write what rendering
      that listener's element with its new value writes, and nothing else. */
  lemma {:induction false} HandlerWritesSole(ls: seq<Listener>, fired: seq<bool>, els: map<nat, Element>,
                                             dom: Dom, i: nat)
    requires |fired| == |ls| && forall k :: 0 <= k < |ls| ==> ls[k].owner in els
    requires i < |ls| && fired[i]
    requires forall j :: 0 <= j < |ls| && j != i ==> !fired[j]
    ensures HandlerWrites(ls, fired, els, dom)
              == ApplyValue(els[ls[i].owner].(value := ls[i].last), ls[i].owner, dom)
  {
    if i == 0 {
      var o := ls[0].owner;
      var el := els[o].(value := ls[0].last);
      assert forall j :: 0 <= j < |ls[1..]| ==> !fired[1..][j] by {
        forall j | 0 <= j < |ls[1..]| ensures !fired[1..][j] {
          assert fired[1..][j] == fired[j + 1];
        }
      }
      assert HandlerWrites(ls[1..], fired[1..], els[o := el], dom) == [];
    } else {
      assert !fired[0];
      HandlerWritesSole(ls[1..], fired[1..], els, dom, i - 1);
    }
  }

  /** What an input event writes: when listener `i` is the only one the new
      value reaches, the event writes exactly what rendering its element
      with that value writes. */
  lemma UpdateRendersSoleListener(p: Page, dom: Dom, input: nat, max: string, value: string,
                                  maxNumber: Option<int>, valueNumber: Option<int>, i: nat)
    requires OwnersKnown(p) && i < |p.listeners| && Live(p, p.listeners[i])
    requires MatchesScope(dom, p.listeners[i].owner, input, p.listeners[i].selector)
    requires !StrictEquals(SourceValue(max, value, maxNumber, valueNumber), p.listeners[i].last)
    requires forall j :: 0 <= j < |p.listeners| && j != i && Live(p, p.listeners[j])
                           && MatchesScope(dom, p.listeners[j].owner, input, p.listeners[j].selector)
                         ==> StrictEquals(SourceValue(max, value, maxNumber, valueNumber), p.listeners[j].last)
    ensures var o := p.listeners[i].owner;
      InputUpdate(p, dom, input, max, value, maxNumber, valueNumber).writes
        == ApplyValue(p.elements[o].(value := SourceValue(max, value, maxNumber, valueNumber)), o, dom)
  {
    var v := SourceValue(max, value, maxNumber, valueNumber);
    var m := Store(p.entries, input, v);
    StoreThenLookup(p.entries, input, v, input);
    SoleRenders(p.listeners, LiveFlags(p), dom, m, input, p.elements, i);
  }

  /** `UpdateRendersSoleListener` over any map: the dispatch fires only
      listener `i`, and the handlers render its element once. */
  lemma SoleRenders(ls: seq<Listener>, live: seq<bool>, dom: Dom, m: Entries, input: nat,
                    els: map<nat, Element>, i: nat)
    requires |live| == |ls| && i < |ls| && live[i]
    requires forall k :: 0 <= k < |ls| ==> ls[k].owner in els
    requires MatchesScope(dom, ls[i].owner, input, ls[i].selector)
    requires !StrictEquals(Lookup(m, input), ls[i].last)
    requires forall j :: 0 <= j < |ls| && j != i && live[j] && MatchesScope(dom, ls[j].owner, input, ls[j].selector)
                         ==> StrictEquals(Lookup(m, input), ls[j].last)
    ensures var b := Broadcast(ls, live, dom, m, input);
      HandlerWrites(b.0, b.1, els, dom) == ApplyValue(els[ls[i].owner].(value := Lookup(m, input)), ls[i].owner, dom)
  {
    var b := Broadcast(ls, live, dom, m, input);
    SoleFired(ls, live, dom, m, input, i);
    HandlerWritesSole(b.0, b.1, els, dom, i);
  }

  /** The broadcast side of `UpdateRendersSoleListener`: only listener `i`
      fires, and it now holds the stored value. */
  lemma SoleFired(ls: seq<Listener>, live: seq<bool>, dom: Dom, m: Entries, input: nat, i: nat)
    requires |live| == |ls| && i < |ls| && live[i]
    requires MatchesScope(dom, ls[i].owner, input, ls[i].selector)
    requires !StrictEquals(Lookup(m, input), ls[i].last)
    requires forall j :: 0 <= j < |ls| && j != i && live[j] && MatchesScope(dom, ls[j].owner, input, ls[j].selector)
                         ==> StrictEquals(Lookup(m, input), ls[j].last)
    ensures var b := Broadcast(ls, live, dom, m, input);
      && b.1[i] && b.0[i].last == Lookup(m, input)
      && (forall k :: 0 <= k < |ls| ==> b.0[k].owner == ls[k].owner)
      && (forall j :: 0 <= j < |ls| && j != i ==> !b.1[j])
  {
  }

  // ---------------------------------------------------------------------
  // Reconnection
  // ---------------------------------------------------------------------

  /** As written, an element with a `from` attribute that is disconnected
      and connected again keeps no live subscription. */
  lemma ReconnectIsDeaf(p: Page, dom: Dom, self: nat)
    requires WellFormed(p) && self in p.elements && p.elements[self].from.Some?
    ensures var r := Connected(Disconnected(p, self), dom, self).page;
      forall i :: 0 <= i < |r.listeners| && r.listeners[i].owner == self ==> !Live(r, r.listeners[i])
  {
    DisconnectLeavesNothingLive(p.elements[self].controllers);
  }

  /** So no later update of any input reaches it: its `value` and
      everything else about it stay as they were. */
  lemma ReconnectedElementMissesUpdates(p: Page, dom: Dom, self: nat, input: nat, max: string, value: string,
                                        maxNumber: Option<int>, valueNumber: Option<int>)
    requires WellFormed(p) && self in p.elements && p.elements[self].from.Some?
    ensures var q := Connected(Disconnected(p, self), dom, self).page;
      InputUpdate(q, dom, input, max, value, maxNumber, valueNumber).page.elements[self] == q.elements[self]
  {
    DisconnectedKeepsWellFormed(p, self);
    ReconnectIsDeaf(p, dom, self);
  }

  /** With a connection that always subscribes, a reconnected element has
      exactly one live subscription, to its own `from` selector. */
  lemma ReconnectFixedListens(p: Page, dom: Dom, self: nat)
    requires WellFormed(p) && self in p.elements
    ensures var r := ConnectedFixed(Disconnected(p, self), dom, self).page;
      && r.listeners[|r.listeners| - 1].owner == self
      && r.listeners[|r.listeners| - 1].selector == p.elements[self].from.GetOr("*")
      && Live(r, r.listeners[|r.listeners| - 1])
      && forall i :: 0 <= i < |r.listeners| && r.listeners[i].owner == self ==>
           (Live(r, r.listeners[i]) <==> i == |r.listeners| - 1)
  {
    var q := Disconnected(p, self);
    DisconnectedKeepsWellFormed(p, self);
    FromChangeSubscribesOnce(q, dom, self, None, Some(p.elements[self].from.GetOr("*")));
  }
}

=== FILE: wrappers.dfy ===
/** Optional values and error outcomes shared by the other modules. */
module Wrappers {

  /** `None` stands for a JavaScript `null`/`undefined` (or NaN where noted). */
  datatype Option<+T> = None | Some(value: T) {
    /** The value, or `default` when there is none. */
    function GetOr(default: T): (r: T)
      ensures Some? ==> r == value
      ensures None? ==> r == default
    {
      if Some? then value else default
    }
  }

  /** The outcome of a step that may throw: `Failure` carries the reason. */
  datatype Result<+R, +E> = Success(value: R) | Failure(error: E)
}
